=== FILE: README.md ===
# Fyyur booking directory — a Dafny model of its data layer

Fyyur is a Flask/SQLAlchemy web application that lists music venues, artists
and the shows that bring an artist to a venue. This project models the part of
it that is plain logic over the database, and proves properties of that model:

- **The schema** (`models.py`). It has three tables. The model keeps the
  constraints the column declarations impose:
  - required columns are non-null;
  - `String(120)` and `String(500)` columns are bounded;
  - venue names and artist names are unique;
  - every show refers to an existing artist and venue.
- **The mutations** (`create_*_submission`, `edit_*_submission`,
  `delete_venue`, and the cascade from `Venue.shows` / `Artist.shows`).
  - Each is a function `Store -> (Outcome, Store)` sharing one try / commit /
    except-rollback envelope (`Mutations.Transact`).
  - A rolled-back mutation returns the store unchanged.
  - For every mutation, the model proves which inputs commit and which reason
    each failure has, that valid stores stay valid, and exactly what a commit
    changes.
- **The queries**:
  - the ten newest venues and artists, and every show newest first;
  - the venue listing grouped by case-insensitive (city, state), through the
    first-match scan `hasItem`;
  - the past and upcoming shows of a venue or artist around a time `now`;
  - venue and artist search;
  - the detail pages and the prefilled edit forms.
- **The genre text form**. The detail and edit views read the stored genres as
  the text of a database array, `{Rock,Jazz}`. They drop the first and last
  character and split on commas (`Genres.Decode`). PostgreSQL writes that text
  with every element that is empty, spells `NULL` or holds white space, a
  quote, a backslash, a brace or a comma in double quotes (`Genres.Encode`),
  so such a genre comes back quoted: `Heavy Metal` reads back as
  `"Heavy Metal"`.

Times are integers. The wall clock becomes a `now` parameter. Tables are
sequences of rows in primary-key order, each with a serial counter for the next
id.

Modelling notes:

- Deleting, or editing, an id that names no row fails and rolls back. The code
  deletes or dereferences `None` inside the `try` (app.py:231-237,
  app.py:354-360), so the `except` branch rolls back.
- `genres` is declared `ARRAY(String)` in `models.py`, yet `app.py` slices and
  splits it as text. The model stores the text form and decodes it the way the
  views do.
- On insert, a `seeking_talent` / `seeking_venue` of `None` takes the column
  default, false. On edit, `None` is written as NULL. Stored values are
  therefore `Option<bool>`.
- `app.py` has no route that deletes an artist. `Mutations.DeleteArtist` is
  the `Artist.shows` cascade of `models.py:40`, wrapped in the same
  try / commit / rollback envelope as `delete_venue` (app.py:227-245).

Modules, one per file:

- `Optional` and `Text` (`text.dfy`): the option type, ASCII lower-casing,
  substrings, split and join.
- `Like` (`like.dfy`): the SQL `LIKE`/`ILIKE` matcher the search uses.
- `Tables` (`tables.dfy`): ordered tables, lookup by key, filtering, and
  insert, replace or remove of one row.
- `Schema`: rows, the store, the constraints.
- `Genres`: the genre text form.
- `ShowLists`: past and upcoming shows.
- `Listings`: the newest-first listings.
- `Grouping`: the venue listing by area.
- `Search`: venue and artist search.
- `Mutations`: create, update, delete.
- `Details`: detail pages and edit forms.

## Model

| member | source | states |
|---|---|---|
| Schema.EmptyStoreValid | projects/01_fyyur/starter_code/models.py:5-51 | the empty database satisfies every declared constraint |
| Schema.VenueById | projects/01_fyyur/starter_code/app.py:163 | `Venue.query.get(id)` finds a row exactly when a venue has that id, and the row it finds has that id |
| Schema.ArtistById | projects/01_fyyur/starter_code/app.py:282 | `Artist.query.get(id)` finds a row exactly when an artist has that id |
| Schema.VenueFoundByKey | projects/01_fyyur/starter_code/models.py:8 | ids are a primary key: looking up a venue's id finds that very venue |
| Schema.ArtistFoundByKey | projects/01_fyyur/starter_code/models.py:29 | looking up an artist's id finds that very artist |
| Genres.Decode | projects/01_fyyur/starter_code/app.py:164 | `genres[1:-1].split(',')` yields a non-empty list of comma-free tags, one more than the commas in the inner text |
| Genres.Encode | projects/01_fyyur/starter_code/app.py:212 | a list is stored in the brace-delimited text form; for a non-empty list of comma-free tags, decoding that text gives each tag as the database prints it |
| Genres.DecodeBraced | projects/01_fyyur/starter_code/app.py:164 | decoding `"{" + ",".join(tags) + "}"` gives back every non-empty list of comma-free tags |
| Genres.ExactWhenUnquoted | projects/01_fyyur/starter_code/app.py:212 | for a non-empty list of comma-free tags, decoding the stored text gives the list back if and only if no tag needs quotes |
| Genres.Quote | projects/01_fyyur/starter_code/models.py:15 | an element of the `ARRAY(String)` column is printed unchanged unless it needs quotes; then it is inside double quotes, and the inside is well-formed (no bare `"`, no dangling backslash) and reads back, backslashes dropped, as the element; quoting adds no comma |
| Genres.Escape | projects/01_fyyur/starter_code/models.py:34 | the escaped text is well-formed, reads back as the original, and is longer by exactly the number of `"` and `\` in it, so exactly those two characters are escaped |
| Genres.ShownUnchanged | projects/01_fyyur/starter_code/models.py:34 | the printed list equals the stored one exactly when no tag needs quotes |
| Genres.SpacedTagShownQuoted | projects/01_fyyur/starter_code/app.py:347 | the genre `a b` reads back through the edit form's decoding as `"a b"`, quotes included |
| Genres.DecodeEmpty | projects/01_fyyur/starter_code/app.py:309 | an empty list is stored as `{}` and decodes to one empty tag `[""]` |
| Genres.EncodeDecode | projects/01_fyyur/starter_code/app.py:347 | every brace-delimited text is its decoded pieces joined by commas inside braces, so decoding loses nothing |
| Genres.ReencodeUnquoted | projects/01_fyyur/starter_code/app.py:347 | a brace-delimited text whose pieces need no quotes is the encoding of its decoding |
| Like.IlikeContainsIsSubstring | projects/01_fyyur/starter_code/app.py:143-146 | for a term without wildcards, `ILIKE '%' + term + '%'` holds exactly when the lower-cased term is a substring of the lower-cased text |
| Like.EmptyTermMatchesAll | projects/01_fyyur/starter_code/app.py:143 | the pattern built from the empty term matches every text |
| Like.Match | projects/01_fyyur/starter_code/app.py:143-146 | `LIKE` matching: a pattern without wildcards or escapes matches exactly the text equal to it |
| ShowLists.PastOf | projects/01_fyyur/starter_code/app.py:49 | the past shows of an owner are exactly the shows of the store with that owner's id that start strictly before `now`: each listed show is one, and each one is listed |
| ShowLists.UpcomingOf | projects/01_fyyur/starter_code/app.py:75 | the upcoming shows of an owner are exactly the shows of the store with that owner's id that start at `now` or later |
| ShowLists.Partition | projects/01_fyyur/starter_code/app.py:45-94 | for one `now`, the past and upcoming shows of an owner are disjoint, their union is exactly the owner's shows (each once), and their counts add up |
| ShowLists.Entry | projects/01_fyyur/starter_code/app.py:51-68 | a list entry carries the show's start time and the id of its other party, with the name and image link stored for that artist (venue page) or venue (artist page) |
| ShowLists.PastShows | projects/01_fyyur/starter_code/app.py:45-69 | `get_past_shows` has one entry per past show of the owner, entry i being that of past show i (its other party's id, name and image link, its start time), all starting before `now`; every past show's entry is listed |
| ShowLists.UpcomingShows | projects/01_fyyur/starter_code/app.py:71-94 | `get_upcoming_shows` has one entry per upcoming show, entry i being that of upcoming show i, all starting at `now` or later; every upcoming show's entry is listed |
| Listings.NewestOf | projects/01_fyyur/starter_code/app.py:111 | `ORDER BY id DESC LIMIT n` takes min(n, size) rows of the table in strictly descending id order, and every row left out is older than every row taken |
| Listings.NewestVenues | projects/01_fyyur/starter_code/app.py:111 | the venue listing takes at most ten venues, highest id first, every venue left out being older |
| Listings.NewestArtists | projects/01_fyyur/starter_code/app.py:253 | the artist listing is at most ten (id, name) pairs of stored artists, strictly descending by id, every artist left out being older |
| Listings.ShowsNewestFirst | projects/01_fyyur/starter_code/app.py:429 | the show listing holds every show exactly once (same multiset), in strictly descending id order |
| Listings.ShowListing | projects/01_fyyur/starter_code/app.py:428-440 | one line per show, newest first, each naming the show's venue and artist as stored |
| Grouping.HasItem | projects/01_fyyur/starter_code/app.py:113-117 | `hasItem` returns the first area whose city and state equal the venue's ignoring case, and nothing exactly when no area matches |
| Grouping.GroupAll | projects/01_fyyur/starter_code/app.py:119-134 | the loop adds exactly one entry per venue: the area sizes sum to the number of venues grouped, and there are at most as many areas as venues |
| Grouping.GroupAllDescribed | projects/01_fyyur/starter_code/app.py:119-134 | the loop builds one area per distinct case-insensitive (city, state) in order of first occurrence, labelled with its first venue's city and state, listing exactly its venues in order, the first as opener |
| Grouping.Venues | projects/01_fyyur/starter_code/app.py:108-136 | `venues()` groups the ten newest venues into at most one area per venue, and at least one area when any venue exists; the lemmas `Grouping.Venues*` state what each area holds |
| Grouping.VenuesKeysDistinct | projects/01_fyyur/starter_code/app.py:113-131 | no two areas have equal (city, state) up to case |
| Grouping.VenuesCover | projects/01_fyyur/starter_code/app.py:119-131 | every venue taken has an area with its (city, state) |
| Grouping.VenuesMembership | projects/01_fyyur/starter_code/app.py:119-134 | a venue taken is listed in an area exactly when the area's key is the venue's, so it lands in exactly one area |
| Grouping.VenuesAreaShape | projects/01_fyyur/starter_code/app.py:120-134 | every area is non-empty, lists its venues highest id first, is labelled with the original-case city and state of its first venue, and only that venue's entry carries `num_upcoming_shows` |
| Grouping.VenuesFirstOccurrence | projects/01_fyyur/starter_code/app.py:119-131 | areas appear in order of first occurrence: an earlier area's first venue has a higher id than a later area's |
| Search.Find | projects/01_fyyur/starter_code/app.py:142-157 | the count is the number of results; every result is a matching record with its upcoming-show count; every matching record is among the results |
| Search.Matches | projects/01_fyyur/starter_code/app.py:142-147 | for a wildcard-free term, a record matches exactly when the lower-cased term is a substring of its lower-cased name, city, state or `city + ", " + state` |
| Search.EmptyTermFindsAll | projects/01_fyyur/starter_code/app.py:260-269 | the empty search term finds every record; the count is the size of the table |
| Search.CountIsNumberOfMatches | projects/01_fyyur/starter_code/app.py:150 | the count equals the number of distinct matching records |
| Mutations.Violation | projects/01_fyyur/starter_code/models.py:9-51 | the commit-time check reports a violation exactly when a length bound, a unique name or a show's foreign key is broken |
| Mutations.Transact | projects/01_fyyur/starter_code/app.py:214-218 | all or nothing: a rollback returns the store unchanged; a commit happens exactly when staging succeeded, the staged state satisfies every constraint and nothing else fails, and then the staged state is the new store |
| Mutations.InsertDefault | projects/01_fyyur/starter_code/models.py:18 | on insert, a missing or `None` seeking flag is stored as false, never NULL |
| Mutations.CreateVenue | projects/01_fyyur/starter_code/app.py:199-218 | a rolled-back creation leaves the store unchanged; a committed one needs every required field and appends exactly the form's venue under the next id |
| Mutations.CreateVenueOutcome | projects/01_fyyur/starter_code/models.py:9-19 | on a valid store: a missing required field, a value too long, a name some venue has, or a failed commit rolls back with that reason; every other form commits |
| Mutations.CreateVenueEffect | projects/01_fyyur/starter_code/app.py:212-215 | a commit leaves a valid store with one more venue under the next id holding the form's values (`seeking_talent` true only if given true) and every other row as it was |
| Mutations.CreateArtist | projects/01_fyyur/starter_code/app.py:396-414 | a rolled-back creation leaves the store unchanged; a committed one needs every required field and appends exactly the form's artist |
| Mutations.CreateArtistOutcome | projects/01_fyyur/starter_code/models.py:30-39 | the same case analysis for artists |
| Mutations.CreateArtistEffect | projects/01_fyyur/starter_code/app.py:408-411 | a commit leaves a valid store with one more artist under the next id holding the form's values, and every other row as it was |
| Mutations.CreateShow | projects/01_fyyur/starter_code/app.py:452-462 | a rolled-back creation leaves the store unchanged; a committed one needs both ids and appends one show, its start time the form's or the model's load-time default |
| Mutations.CreateShowOutcome | projects/01_fyyur/starter_code/models.py:49-51 | a missing artist or venue id, an artist or venue that does not exist, or a failed commit rolls back; every other form commits |
| Mutations.CreateShowEffect | projects/01_fyyur/starter_code/app.py:455-459 | a commit leaves a valid store with one more show, last, between the form's artist and venue, both existing, starting at the form's time or at load time, and the old shows untouched |
| Mutations.DefaultStartIsFixed | projects/01_fyyur/starter_code/models.py:49 | the default start time is fixed at load: two shows created without a start time, at any two request times, get the same start time |
| Mutations.AddShowChecks | projects/01_fyyur/starter_code/models.py:50-51 | a new show keeps the foreign keys exactly when its artist and its venue exist |
| Mutations.UpdateVenue | projects/01_fyyur/starter_code/app.py:354-374 | a rollback leaves the store unchanged, and an id naming no venue always rolls back with NotFound |
| Mutations.UpdateVenueOutcome | projects/01_fyyur/starter_code/app.py:357-371 | on a valid store: an absent id, a missing required field, a value too long, a name another venue has, or a failed commit rolls back with that reason; otherwise the edit commits |
| Mutations.UpdateVenueEffect | projects/01_fyyur/starter_code/app.py:359-369 | a commit leaves a valid store in which the venue holds the form's values (a `None` seeking flag as NULL) under the same id and place, every other row as it was |
| Mutations.UpdateArtist | projects/01_fyyur/starter_code/app.py:317-334 | a rollback leaves the store unchanged, and an id naming no artist always rolls back with NotFound |
| Mutations.UpdateArtistOutcome | projects/01_fyyur/starter_code/app.py:319-331 | the same case analysis for editing an artist |
| Mutations.UpdateArtistEffect | projects/01_fyyur/starter_code/app.py:321-330 | a commit leaves a valid store in which the artist holds the form's values, every other row as it was |
| Mutations.DeleteVenue | projects/01_fyyur/starter_code/app.py:231-237 | a rollback leaves the store unchanged, and an id naming no venue always rolls back with NotFound |
| Mutations.DeleteVenueOutcome | projects/01_fyyur/starter_code/app.py:232-234 | on a valid store a delete fails only for an absent id or a failed commit |
| Mutations.DeleteVenueEffect | projects/01_fyyur/starter_code/models.py:20 | a commit leaves a valid store without the venue and without exactly the shows at it; every other venue, every artist and every other show remains |
| Mutations.DropVenue | projects/01_fyyur/starter_code/models.py:20 | the `Venue.shows` cascade: one venue fewer, no venue that was not there, every artist kept, and a show kept exactly when it was there and is not at the deleted venue |
| Mutations.DeleteArtist | projects/01_fyyur/starter_code/models.py:40 | a rollback leaves the store unchanged, and an id naming no artist always rolls back with NotFound |
| Mutations.DeleteArtistOutcome | projects/01_fyyur/starter_code/models.py:26-40 | on a valid store deleting an artist fails only for an absent id or a failed commit |
| Mutations.DeleteArtistEffect | projects/01_fyyur/starter_code/models.py:40 | a commit leaves a valid store without the artist and without exactly its shows; everything else remains |
| Mutations.DropArtist | projects/01_fyyur/starter_code/models.py:40 | the `Artist.shows` cascade: one artist fewer, every venue kept, and a show kept exactly when it was there and is not by the deleted artist |
| Details.ScheduleAt | projects/01_fyyur/starter_code/app.py:179-182 | the show counts on a detail page equal the lengths of the two lists |
| Details.ScheduleCoversShows | projects/01_fyyur/starter_code/app.py:297-300 | with one reading of the clock, every show of the owner is in exactly the list its start time puts it in, and the counts add up to the number of its shows |
| Details.VenueDetailAsWritten | projects/01_fyyur/starter_code/app.py:161-184 | as written, the venue page exists exactly when the venue does and shows the stored venue with its past list read at one clock reading and its upcoming list at another |
| Details.ArtistDetailAsWritten | projects/01_fyyur/starter_code/app.py:280-302 | as written, the artist page exists exactly when the artist does and shows the stored artist with its two lists read at two clock readings |
| Details.VenueDetail | projects/01_fyyur/starter_code/app.py:161-184 | the venue page exists exactly when the venue does, and shows that stored venue's columns, its decoded genres and its shows split around `now` |
| Details.ArtistDetail | projects/01_fyyur/starter_code/app.py:280-302 | the artist page exists exactly when the artist does, and shows that stored artist |
| Details.VenueDetailListsEveryShow | projects/01_fyyur/starter_code/app.py:179-182 | with one reading of the clock, the venue page lists every show of the venue, and its counts add up to the venue's number of shows |
| Details.ArtistDetailListsEveryShow | projects/01_fyyur/starter_code/app.py:297-300 | the same for the artist page |
| Details.TwoClocksLoseShow | projects/01_fyyur/starter_code/app.py:179-180 | as written, with two clock readings, a show starting between them is on neither list of the venue page |
| Details.TwoClocksMissShow | projects/01_fyyur/starter_code/app.py:179-180 | as written, every show of the venue starting at or after the first reading and before the second is on neither list, and the two counts add up to fewer than the venue's shows |
| Details.EditVenueForm | projects/01_fyyur/starter_code/app.py:345-348 | the edit form exists exactly when the venue does, has every required field filled in, and each field holds the stored venue's column, the genres decoded |
| Details.EditArtistForm | projects/01_fyyur/starter_code/app.py:307-311 | the edit form exists exactly when the artist does, has every required field filled in, and each field holds the stored artist's column, the genres decoded |
| Details.EditVenueRoundTrip | projects/01_fyyur/starter_code/app.py:345-371 | after a committed edit of comma-free genres, the edit form shows what was submitted, each genre as the database prints it |
| Details.EditVenueExact | projects/01_fyyur/starter_code/app.py:345-371 | after a committed edit, the edit form is exactly the submitted one if and only if no genre needs quotes |
| Details.EditArtistRoundTrip | projects/01_fyyur/starter_code/app.py:307-331 | the same for artists: the form shows the submitted one with each genre as printed |
| Details.EditArtistExact | projects/01_fyyur/starter_code/app.py:307-331 | the artist edit form is exactly the submitted one if and only if no genre needs quotes |
| Details.CreateVenueRoundTrip | projects/01_fyyur/starter_code/app.py:199-215 | a venue just created reads back through its edit form as submitted, an unanswered `seeking_talent` as false and each genre as the database prints it |
| Details.CreateVenueExact | projects/01_fyyur/starter_code/app.py:199-215 | a venue just created reads back exactly as submitted, but for the seeking flag, if and only if no genre needs quotes |
| Details.CreateArtistRoundTrip | projects/01_fyyur/starter_code/app.py:396-411 | the same for artists: an unanswered `seeking_venue` reads back as false, each genre as printed |
| Details.CreateArtistExact | projects/01_fyyur/starter_code/app.py:396-411 | an artist just created reads back exactly as submitted, but for the seeking flag, if and only if no genre needs quotes |
| Details.NewVenueHasNoShows | projects/01_fyyur/starter_code/models.py:51 | a venue just created has a page with empty past and upcoming lists |

## Left out

- `format_datetime` (babel/dateutil locale formatting) and the `str()` rendering of start times: times stay integers.
- `render_template`, `flash`, `redirect`, the route decorators, the 404/500 handlers and the logging setup. Outcomes are a value; messages and redirects are not modelled.
- `session.close()` after each handler, including its absence in `create_artist_submission`. Sessions and connections are not modelled.
- The form classes, which are not part of this model. Form values are inputs given as `Option` values.
- `config.py` and `settings.py`: environment loading and the database URI.
- Database isolation and concurrency between requests. Also any commit failure other than a declared constraint, which the caller supplies as the `transient` flag.
- PostgreSQL sequences are not rolled back when a transaction is: a rolled-back `add` and `commit` (app.py:214-218, app.py:410-414, app.py:458-462) has already used up a value. The model's rollback clauses (`Mutations.Transact` and every `*Outcome` / `*Effect` built on it) keep the whole store, the id counters `nextVenueId`, `nextArtistId` and `nextShowId` included, where the database would have advanced its sequence. The three tables are restored exactly either way. So after a rollback the model gives the next row a lower id than the database would.
- Genres.Encode: the elements are written as PostgreSQL's array output writes text, with ASCII white space only. Decoding is stated for lists of comma-free tags only: a tag with a comma is printed quoted and then split apart by `split(',')`, and the model says nothing about the pieces.
- Genres.EncodeDecode: re-encoding the decoded pieces gives the text back only when no piece needs quotes (`Genres.ReencodeUnquoted`). A text such as `{a b}`, which PostgreSQL never prints, is re-encoded as `{"a b"}`.
- Details.EditVenueRoundTrip: a genre containing a comma is outside the lemma, for the reason given under `Genres.Encode`.
- Details.EditArtistRoundTrip: the same comma restriction.
- Details.CreateVenueRoundTrip: the same comma restriction.
- Details.CreateArtistRoundTrip: the same comma restriction.
- Details.EditVenueExact: the same comma restriction.
- Details.EditArtistExact: the same comma restriction.
- Details.CreateVenueExact: the same comma restriction.
- Details.CreateArtistExact: the same comma restriction.
- Genres.ExactWhenUnquoted: the same comma restriction.
- Python's Unicode `lower()`: lower-casing is ASCII only.
- Search.Find: the result order is unspecified, because the search queries have no `ORDER BY`. The model lists matches in table order, and the contract speaks only of which records are listed. The handlers also read the clock afresh for each result's `num_upcoming_shows` (app.py:156, app.py:274); the model uses one `now` for the whole response.
- ShowLists.PastShows: `get_past_shows` queries without `ORDER BY` (app.py:49, app.py:60), so the database may return the shows in any order. The model fixes table order, and `Details.VenueDetail` / `Details.ArtistDetail` carry that order.
- ShowLists.UpcomingShows: the same for `get_upcoming_shows` (app.py:75, app.py:86).
- Mutations.Violation: PostgreSQL stores a value longer than its `VARCHAR(n)` bound when every excess character is a space, truncating it to `n` characters. The model rejects every over-long value with `TooLong`, because the database's type coercion is not part of this model.
- Mutations.CreateVenueOutcome: for a form whose over-long fields exceed their bound by trailing spaces only, the database commits a truncated value where the model rolls back with `TooLong`.
- Mutations.CreateVenueEffect: such a commit stores the truncated value, which the model does not describe.
- Mutations.CreateArtistOutcome: the same trailing-space truncation is not modelled.
- Mutations.CreateArtistEffect: the truncated value the database would store is not described.
- Mutations.UpdateVenueOutcome: the same trailing-space truncation is not modelled.
- Mutations.UpdateVenueEffect: the truncated value the database would store is not described.
- Mutations.UpdateArtistOutcome: the same trailing-space truncation is not modelled.
- Mutations.UpdateArtistEffect: the truncated value the database would store is not described.
- Grouping.Venues: each venue's `num_upcoming_shows` is computed with its own reading of the clock. The model uses one `now` for the whole listing.
- The string route parameter of `delete_venue`: the id is an integer.
- `get_past_shows` / `get_upcoming_shows` with a model other than `'venue'` or `'artist'`, which return an empty list. `Owner` has only the two cases the handlers use.
- The form for an absent id on `edit_venue` / `edit_artist` (GET) and the detail pages of an absent id: these raise in the source (a 500), and the model returns `None`.

## Findings

| source | as written | input that shows it | evidently intended | confidence | as-written member | corrected member |
|---|---|---|---|---|---|---|
| projects/01_fyyur/starter_code/app.py:179-180 | the detail page builds the past list and the upcoming list from two separate readings of `datetime.today()` (also app.py:297-298) | a venue with one show starting at time 5; past list read at 5, upcoming list read at 6: the show is on neither list, counts 0 + 0 instead of 1 | each show of the owner on exactly one list, the counts adding up to its number of shows | not executed; the window between the two readings is short | Details.TwoClocksLoseShow | Details.VenueDetailListsEveryShow |

=== FILE: details.dfy ===
/** The detail pages of a venue and of an artist (`show_venue`,
    `show_artist`) and the prefilled edit forms (`edit_venue`, `edit_artist`).
    A detail page shows the stored columns, the genres decoded from their text
    form, and the owner's past and upcoming shows with their counts. Both
    handlers fail when the id names no row (they dereference `None`); the model
    returns `None` there.

    The handlers compute the past list and the upcoming list from two separate
    readings of the clock. `ScheduleAt` takes both readings; the pages proper
    read the clock once and pass the same `now` twice. */
module Details {
  import opened Optional
  import opened Tables
  import opened Schema
  import opened ShowLists
  import opened Mutations
  import Genres

  /** The show part of a detail page. */
  datatype Schedule = Schedule(
    pastShows: seq<ShowEntry>,
    upcomingShows: seq<ShowEntry>,
    pastShowsCount: nat,
    upcomingShowsCount: nat)

  /** `get_past_shows` read at `pastClock`, `get_upcoming_shows` read at
      `upcomingClock`, and the lengths of the two lists. */
  function ScheduleAt(s: Store, owner: Owner, id: int, pastClock: int, upcomingClock: int): (r: Schedule)
    requires Resolves(s)
    ensures r.pastShowsCount == |r.pastShows| && r.upcomingShowsCount == |r.upcomingShows|
    ensures forall i :: 0 <= i < |r.pastShows| ==> r.pastShows[i].startTime < pastClock
    ensures forall i :: 0 <= i < |r.upcomingShows| ==> r.upcomingShows[i].startTime >= upcomingClock
  {
    var past := PastShows(s, owner, id, pastClock);
    var upcoming := UpcomingShows(s, owner, id, upcomingClock);
    Schedule(past, upcoming, |past|, |upcoming|)
  }

  /** The owner's shows as one reading of the clock sorts them. */
  function ScheduleOf(s: Store, owner: Owner, id: int, now: int): Schedule
    requires Resolves(s)
  {
    ScheduleAt(s, owner, id, now, now)
  }

  /** With one reading of the clock, every show of the owner appears in exactly
      one of the two lists — the past one when it starts before `now`, the
      upcoming one otherwise — and the two counts add up to the number of the
      owner's shows. */
  lemma ScheduleCoversShows(s: Store, owner: Owner, id: int, now: int)
    requires Resolves(s)
    ensures var sc := ScheduleOf(s, owner, id, now);
            sc.pastShowsCount + sc.upcomingShowsCount == |Owned(s, owner, id)|
    ensures var sc := ScheduleOf(s, owner, id, now);
            forall k :: 0 <= k < |Owned(s, owner, id)| ==>
              if Owned(s, owner, id)[k].startTime < now
              then Entry(s, owner, Owned(s, owner, id)[k]) in sc.pastShows
              else Entry(s, owner, Owned(s, owner, id)[k]) in sc.upcomingShows
  {
    Partition(s, owner, id, now);
    var owned := Owned(s, owner, id);
    var past, upcoming := PastOf(s, owner, id, now), UpcomingOf(s, owner, id, now);
    forall k | 0 <= k < |owned|
      ensures if owned[k].startTime < now
              then Entry(s, owner, owned[k]) in PastShows(s, owner, id, now)
              else Entry(s, owner, owned[k]) in UpcomingShows(s, owner, id, now)
    {
      var sh := owned[k];
      assert sh in owned;
      if sh.startTime < now {
        assert sh !in upcoming;
        var j :| 0 <= j < |past| && past[j] == sh;
        assert PastShows(s, owner, id, now)[j] == Entry(s, owner, sh);
      } else {
        assert sh !in past;
        var j :| 0 <= j < |upcoming| && upcoming[j] == sh;
        assert UpcomingShows(s, owner, id, now)[j] == Entry(s, owner, sh);
      }
    }
  }

  // ---------------------------------------------------------------------------
  // Detail pages

  datatype VenueView = VenueView(
    id: int,
    name: string,
    genres: seq<string>,
    address: string,
    city: string,
    state: string,
    phone: Option<string>,
    website: Option<string>,
    facebookLink: Option<string>,
    seekingTalent: Option<bool>,
    seekingDescription: Option<string>,
    imageLink: Option<string>,
    shows: Schedule)

  datatype ArtistView = ArtistView(
    id: int,
    name: string,
    genres: seq<string>,
    city: string,
    state: string,
    phone: Option<string>,
    website: Option<string>,
    facebookLink: Option<string>,
    seekingVenue: Option<bool>,
    seekingDescription: Option<string>,
    imageLink: Option<string>,
    shows: Schedule)

  function ViewOfVenue(v: Venue, shows: Schedule): VenueView {
    VenueView(v.id, v.name, Genres.Decode(v.genres), v.address, v.city, v.state, v.phone,
              v.websiteLink, v.facebookLink, v.seekingTalent, v.seekingDescription, v.imageLink, shows)
  }

  function ViewOfArtist(a: Artist, shows: Schedule): ArtistView {
    ArtistView(a.id, a.name, Genres.Decode(a.genres), a.city, a.state, a.phone,
               a.websiteLink, a.facebookLink, a.seekingVenue, a.seekingDescription, a.imageLink, shows)
  }

  /** `show_venue(id)` as written: the past list read at `pastClock`, the
      upcoming one at the later `upcomingClock`. */
  function VenueDetailAsWritten(s: Store, id: int, pastClock: int, upcomingClock: int): (r: Option<VenueView>)
    requires Resolves(s)
    ensures r.Some? <==> HasVenue(s, id)
    ensures r.Some? ==>
              exists j :: 0 <= j < |s.venues| && s.venues[j].id == id &&
                r.value == ViewOfVenue(s.venues[j], ScheduleAt(s, OfVenue, id, pastClock, upcomingClock))
  {
    match VenueById(s, id)
    case None => None
    case Some(v) => Some(ViewOfVenue(v, ScheduleAt(s, OfVenue, id, pastClock, upcomingClock)))
  }

  /** `show_venue(id)` with the clock read once. The page shows the stored
      venue: its columns, its genres decoded, and its shows split around
      `now`. */
  function VenueDetail(s: Store, id: int, now: int): (r: Option<VenueView>)
    requires Resolves(s)
    ensures r.Some? <==> HasVenue(s, id)
    ensures r.Some? ==> exists j :: 0 <= j < |s.venues| && s.venues[j].id == id && r.value == ViewOfVenue(s.venues[j], ScheduleOf(s, OfVenue, id, now))
  {
    VenueDetailAsWritten(s, id, now, now)
  }

  /** `show_artist(id)` as written, with the same two readings. */
  function ArtistDetailAsWritten(s: Store, id: int, pastClock: int, upcomingClock: int): (r: Option<ArtistView>)
    requires Resolves(s)
    ensures r.Some? <==> HasArtist(s, id)
    ensures r.Some? ==>
              exists j :: 0 <= j < |s.artists| && s.artists[j].id == id &&
                r.value == ViewOfArtist(s.artists[j], ScheduleAt(s, OfArtist, id, pastClock, upcomingClock))
  {
    match ArtistById(s, id)
    case None => None
    case Some(a) => Some(ViewOfArtist(a, ScheduleAt(s, OfArtist, id, pastClock, upcomingClock)))
  }

  /** `show_artist(id)` with the clock read once. */
  function ArtistDetail(s: Store, id: int, now: int): (r: Option<ArtistView>)
    requires Resolves(s)
    ensures r.Some? <==> HasArtist(s, id)
    ensures r.Some? ==> exists j :: 0 <= j < |s.artists| && s.artists[j].id == id && r.value == ViewOfArtist(s.artists[j], ScheduleOf(s, OfArtist, id, now))
  {
    ArtistDetailAsWritten(s, id, now, now)
  }

  /** With two readings of the clock a show can vanish from the page: a venue
      with one show starting at 5, read at 5 for the past list and at 6 for the
      upcoming one, lists it in neither, so the counts add up to 0 rather than
      1. */
  lemma TwoClocksLoseShow()
    ensures var s := OneShowStore();
            var page := VenueDetailAsWritten(s, 1, 5, 6);
            && |Owned(s, OfVenue, 1)| == 1
            && page.Some?
            && page.value.shows.pastShowsCount + page.value.shows.upcomingShowsCount == 0
  {
    var s := OneShowStore();
    assert s.venues[0].id == 1 && s.artists[0].id == 1;
    assert Owned(s, OfVenue, 1) == [s.shows[0]];
    assert PastOf(s, OfVenue, 1, 5) == [];
    assert UpcomingOf(s, OfVenue, 1, 6) == [];
  }

  /** The same loss in general: as written, every show of the venue that
      starts at or after the first reading and before the second is on
      neither list, and the two counts fall short of the venue's number of
      shows. */
  lemma TwoClocksMissShow(s: Store, id: int, pastClock: int, upcomingClock: int, k: int)
    requires Resolves(s) && HasVenue(s, id)
    requires 0 <= k < |s.shows| && s.shows[k].venueId == id
    requires pastClock <= s.shows[k].startTime < upcomingClock
    ensures var sc := VenueDetailAsWritten(s, id, pastClock, upcomingClock).value.shows;
            && Entry(s, OfVenue, s.shows[k]) !in sc.pastShows + sc.upcomingShows
            && sc.pastShowsCount + sc.upcomingShowsCount < |Owned(s, OfVenue, id)|
  {
    var sc := VenueDetailAsWritten(s, id, pastClock, upcomingClock).value.shows;
    assert sc == ScheduleAt(s, OfVenue, id, pastClock, upcomingClock);
    GapEntryUnlisted(sc, pastClock, upcomingClock, Entry(s, OfVenue, s.shows[k]));
    GapShortensCount(s, OfVenue, id, pastClock, upcomingClock, s.shows[k]);
  }

  /** An entry starting between the two readings is on neither list. */
  lemma GapEntryUnlisted(sc: Schedule, pastClock: int, upcomingClock: int, e: ShowEntry)
    requires forall i :: 0 <= i < |sc.pastShows| ==> sc.pastShows[i].startTime < pastClock
    requires forall i :: 0 <= i < |sc.upcomingShows| ==> sc.upcomingShows[i].startTime >= upcomingClock
    requires pastClock <= e.startTime < upcomingClock
    ensures e !in sc.pastShows + sc.upcomingShows
  {
    var all := sc.pastShows + sc.upcomingShows;
    forall i | 0 <= i < |all|
      ensures all[i].startTime != e.startTime
    {
      if i >= |sc.pastShows| {
        assert all[i] == sc.upcomingShows[i - |sc.pastShows|];
      }
    }
  }

  /** A show of the owner starting between the two readings is counted by
      neither list, so the lists hold fewer shows than the owner has. */
  lemma GapShortensCount(s: Store, owner: Owner, id: int, pastClock: int, upcomingClock: int, sh: Show)
    requires sh in s.shows && OwnerId(owner, sh) == id
    requires pastClock <= sh.startTime < upcomingClock
    ensures |PastOf(s, owner, id, pastClock)| + |UpcomingOf(s, owner, id, upcomingClock)| < |Owned(s, owner, id)|
  {
    var between := (x: Show) => OwnerId(owner, x) == id && pastClock <= x.startTime < upcomingClock;
    FilterPartition(s.shows, OwnedBy(owner, id), PastFor(owner, id, pastClock), UpcomingFor(owner, id, pastClock));
    FilterPartition(s.shows, UpcomingFor(owner, id, pastClock), between, UpcomingFor(owner, id, upcomingClock));
    var k :| 0 <= k < |s.shows| && s.shows[k] == sh;
    assert between(s.shows[k]);
    assert sh in Filter(s.shows, between);
  }

  /** One venue, one artist, and one show of that artist at that venue,
      starting at time 5. */
  function OneShowStore(): (s: Store)
    ensures Valid(s)
  {
    var s := Store(
      [Venue(1, "Hall", "Town", "ST", "1 Main St", None, None, "{Jazz}", None, None, Some(false), None)],
      [Artist(1, "Band", "Town", "ST", None, "{Jazz}", None, None, None, Some(false), None)],
      [Show(1, 5, 1, 1)],
      2, 2, 2);
    assert s.venues[0].id == 1 && s.artists[0].id == 1;
    s
  }

  /** The venue page with one clock reading lists every show of the venue,
      each in the list its start time puts it in. */
  lemma VenueDetailListsEveryShow(s: Store, id: int, now: int)
    requires Resolves(s) && HasVenue(s, id)
    ensures var sc := VenueDetail(s, id, now).value.shows;
            && sc.pastShowsCount + sc.upcomingShowsCount == |Owned(s, OfVenue, id)|
            && forall k :: 0 <= k < |Owned(s, OfVenue, id)| ==>
                 Entry(s, OfVenue, Owned(s, OfVenue, id)[k]) in sc.pastShows + sc.upcomingShows
  {
    ScheduleCoversShows(s, OfVenue, id, now);
  }

  lemma ArtistDetailListsEveryShow(s: Store, id: int, now: int)
    requires Resolves(s) && HasArtist(s, id)
    ensures var sc := ArtistDetail(s, id, now).value.shows;
            && sc.pastShowsCount + sc.upcomingShowsCount == |Owned(s, OfArtist, id)|
            && forall k :: 0 <= k < |Owned(s, OfArtist, id)| ==>
                 Entry(s, OfArtist, Owned(s, OfArtist, id)[k]) in sc.pastShows + sc.upcomingShows
  {
    ScheduleCoversShows(s, OfArtist, id, now);
  }

  // ---------------------------------------------------------------------------
  // Edit forms

  /** Form `f` is prefilled from venue `v`: every field holds the stored
      column, the genres decoded from their text form. */
  predicate PrefilledFromVenue(f: VenueForm, v: Venue) {
    && f.name == Some(v.name) && f.city == Some(v.city) && f.state == Some(v.state)
    && f.address == Some(v.address) && f.phone == v.phone
    && f.genres == Some(Genres.Decode(v.genres))
    && f.imageLink == v.imageLink && f.facebookLink == v.facebookLink && f.websiteLink == v.websiteLink
    && f.seekingTalent == v.seekingTalent && f.seekingDescription == v.seekingDescription
  }

  /** Form `f` is prefilled from artist `a`. */
  predicate PrefilledFromArtist(f: ArtistForm, a: Artist) {
    && f.name == Some(a.name) && f.city == Some(a.city) && f.state == Some(a.state)
    && f.phone == a.phone
    && f.genres == Some(Genres.Decode(a.genres))
    && f.imageLink == a.imageLink && f.facebookLink == a.facebookLink && f.websiteLink == a.websiteLink
    && f.seekingVenue == a.seekingVenue && f.seekingDescription == a.seekingDescription
  }

  /** `edit_venue(id)` (GET): the form filled in from the stored venue, its
      genres decoded. */
  function EditVenueForm(s: Store, id: int): (r: Option<VenueForm>)
    ensures r.Some? <==> HasVenue(s, id)
    ensures r.Some? ==> VenueComplete(r.value)
    ensures r.Some? ==> exists j :: 0 <= j < |s.venues| && s.venues[j].id == id && PrefilledFromVenue(r.value, s.venues[j])
  {
    match VenueById(s, id)
    case None => None
    case Some(v) =>
      Some(VenueForm(Some(v.name), Some(v.city), Some(v.state), Some(v.address), v.phone,
                     Some(Genres.Decode(v.genres)), v.imageLink, v.facebookLink, v.websiteLink,
                     v.seekingTalent, v.seekingDescription))
  }

  /** `edit_artist(id)` (GET). */
  function EditArtistForm(s: Store, id: int): (r: Option<ArtistForm>)
    ensures r.Some? <==> HasArtist(s, id)
    ensures r.Some? ==> ArtistComplete(r.value)
    ensures r.Some? ==> exists j :: 0 <= j < |s.artists| && s.artists[j].id == id && PrefilledFromArtist(r.value, s.artists[j])
  {
    match ArtistById(s, id)
    case None => None
    case Some(a) =>
      Some(ArtistForm(Some(a.name), Some(a.city), Some(a.state), a.phone, Some(Genres.Decode(a.genres)),
                      a.imageLink, a.facebookLink, a.websiteLink, a.seekingVenue, a.seekingDescription))
  }

  /** Submitting an edit and opening the edit form again shows what was
      submitted, each genre as the database prints it back, for a non-empty
      list of comma-free genres: a genre such as `Heavy Metal` comes back as
      `"Heavy Metal"`. */
  lemma EditVenueRoundTrip(s: Store, id: int, f: VenueForm, transient: bool)
    requires Valid(s)
    requires f.genres.Some? ==> Genres.Plain(f.genres.value)
    ensures var r := UpdateVenue(s, id, f, transient);
            r.0.Committed? ==> EditVenueForm(r.1, id) == Some(f.(genres := Some(Genres.Shown(f.genres.value))))
  {
    var r := UpdateVenue(s, id, f, transient);
    if r.0.Committed? {
      UpdateVenueEffect(s, id, f, transient);
    }
  }

  /** The edit form reads back exactly as submitted if and only if no genre
      needs quotes. */
  lemma EditVenueExact(s: Store, id: int, f: VenueForm, transient: bool)
    requires Valid(s)
    requires f.genres.Some? ==> Genres.Plain(f.genres.value)
    ensures var r := UpdateVenue(s, id, f, transient);
            r.0.Committed? ==> (EditVenueForm(r.1, id) == Some(f) <==> Genres.Unquoted(f.genres.value))
  {
    var r := UpdateVenue(s, id, f, transient);
    if r.0.Committed? {
      EditVenueRoundTrip(s, id, f, transient);
      Genres.ShownUnchanged(f.genres.value);
    }
  }

  lemma EditArtistRoundTrip(s: Store, id: int, f: ArtistForm, transient: bool)
    requires Valid(s)
    requires f.genres.Some? ==> Genres.Plain(f.genres.value)
    ensures var r := UpdateArtist(s, id, f, transient);
            r.0.Committed? ==> EditArtistForm(r.1, id) == Some(f.(genres := Some(Genres.Shown(f.genres.value))))
  {
    var r := UpdateArtist(s, id, f, transient);
    if r.0.Committed? {
      UpdateArtistEffect(s, id, f, transient);
    }
  }

  lemma EditArtistExact(s: Store, id: int, f: ArtistForm, transient: bool)
    requires Valid(s)
    requires f.genres.Some? ==> Genres.Plain(f.genres.value)
    ensures var r := UpdateArtist(s, id, f, transient);
            r.0.Committed? ==> (EditArtistForm(r.1, id) == Some(f) <==> Genres.Unquoted(f.genres.value))
  {
    var r := UpdateArtist(s, id, f, transient);
    if r.0.Committed? {
      EditArtistRoundTrip(s, id, f, transient);
      Genres.ShownUnchanged(f.genres.value);
    }
  }

  /** A venue just created reads back through its edit form as submitted,
      except that an unanswered `seeking_talent` reads back as false and each
      genre reads back as the database prints it. */
  lemma CreateVenueRoundTrip(s: Store, f: VenueForm, transient: bool)
    requires Valid(s)
    requires f.genres.Some? ==> Genres.Plain(f.genres.value)
    ensures var r := CreateVenue(s, f, transient);
            r.0.Committed? ==>
              EditVenueForm(r.1, s.nextVenueId)
                == Some(f.(seekingTalent := Some(f.seekingTalent == Some(true)), genres := Some(Genres.Shown(f.genres.value))))
  {
    var r := CreateVenue(s, f, transient);
    if r.0.Committed? {
      CreateVenueEffect(s, f, transient);
    }
  }

  /** A venue just created reads back exactly as submitted, but for the
      seeking flag, if and only if no genre needs quotes. */
  lemma CreateVenueExact(s: Store, f: VenueForm, transient: bool)
    requires Valid(s)
    requires f.genres.Some? ==> Genres.Plain(f.genres.value)
    ensures var r := CreateVenue(s, f, transient);
            r.0.Committed? ==>
              (Genres.Unquoted(f.genres.value) <==>
                 EditVenueForm(r.1, s.nextVenueId) == Some(f.(seekingTalent := Some(f.seekingTalent == Some(true)))))
  {
    var r := CreateVenue(s, f, transient);
    if r.0.Committed? {
      CreateVenueRoundTrip(s, f, transient);
      Genres.ShownUnchanged(f.genres.value);
    }
  }

  lemma CreateArtistRoundTrip(s: Store, f: ArtistForm, transient: bool)
    requires Valid(s)
    requires f.genres.Some? ==> Genres.Plain(f.genres.value)
    ensures var r := CreateArtist(s, f, transient);
            r.0.Committed? ==>
              EditArtistForm(r.1, s.nextArtistId)
                == Some(f.(seekingVenue := Some(f.seekingVenue == Some(true)), genres := Some(Genres.Shown(f.genres.value))))
  {
    var r := CreateArtist(s, f, transient);
    if r.0.Committed? {
      CreateArtistEffect(s, f, transient);
    }
  }

  lemma CreateArtistExact(s: Store, f: ArtistForm, transient: bool)
    requires Valid(s)
    requires f.genres.Some? ==> Genres.Plain(f.genres.value)
    ensures var r := CreateArtist(s, f, transient);
            r.0.Committed? ==>
              (Genres.Unquoted(f.genres.value) <==>
                 EditArtistForm(r.1, s.nextArtistId) == Some(f.(seekingVenue := Some(f.seekingVenue == Some(true)))))
  {
    var r := CreateArtist(s, f, transient);
    if r.0.Committed? {
      CreateArtistRoundTrip(s, f, transient);
      Genres.ShownUnchanged(f.genres.value);
    }
  }

  /** A venue just created has no shows yet: in a valid store every show
      refers to an existing venue, and the new id was nobody's. */
  lemma NewVenueHasNoShows(s: Store, f: VenueForm, transient: bool, now: int)
    requires Valid(s)
    ensures var r := CreateVenue(s, f, transient);
            r.0.Committed? ==>
              && VenueDetail(r.1, s.nextVenueId, now).Some?
              && VenueDetail(r.1, s.nextVenueId, now).value.shows == Schedule([], [], 0, 0)
  {
    var r := CreateVenue(s, f, transient);
    if r.0.Committed? {
      CreateVenueEffect(s, f, transient);
      var id := s.nextVenueId;
      forall k | 0 <= k < |s.shows|
        ensures s.shows[k].venueId != id
      {
        assert HasVenue(s, s.shows[k].venueId);
        var j :| 0 <= j < |s.venues| && s.venues[j].id == s.shows[k].venueId;
        assert VenueId(s.venues[j]) < id;
      }
      EmptySchedule(r.1, OfVenue, id, now);
    }
  }

  /** An owner no show refers to has an empty schedule. */
  lemma EmptySchedule(s: Store, owner: Owner, id: int, now: int)
    requires Resolves(s)
    requires forall k :: 0 <= k < |s.shows| ==> OwnerId(owner, s.shows[k]) != id
    ensures ScheduleOf(s, owner, id, now) == Schedule([], [], 0, 0)
  {
    FilterNone(s.shows, PastFor(owner, id, now));
    FilterNone(s.shows, UpcomingFor(owner, id, now));
  }
}

=== FILE: genres.dfy ===
/** The genre list of a venue or artist. The columns are declared as arrays of
    strings, but the detail and edit views read the stored value back as the
    text form of a database array, `{Rock,Jazz}`, and decode it by dropping
    its first and last characters and splitting the rest on commas. */
module Genres {
  import opened Text

  /** Python's `text[1:-1]`: everything but the first and the last character;
      empty when the text has fewer than two characters. */
  function Inner(text: string): (r: string)
    ensures |text| >= 2 ==> |r| == |text| - 2 && text == [text[0]] + r + [text[|text| - 1]]
    ensures |text| < 2 ==> r == ""
  {
    if |text| < 2 then "" else text[1..|text| - 1]
  }

  /** `genres[1:-1].split(',')`. */
  function Decode(text: string): (tags: seq<string>)
    ensures |tags| == Occurrences(Inner(text), ',') + 1
    ensures |tags| > 0
    ensures forall i :: 0 <= i < |tags| ==> ',' !in tags[i]
  {
    Split(Inner(text), ',')
  }

  /** Characters that make PostgreSQL's array output write an element in
      double quotes: the array's own punctuation and ASCII white space. */
  predicate Special(c: char) {
    c == '"' || c == '\\' || c == '{' || c == '}' || c == ',' ||
    c == ' ' || c == '\t' || c == '\n' || c == '\r' || c as int == 0x0B || c as int == 0x0C
  }

  /** An element the array output quotes: the empty string, `NULL` spelled in
      any case, or one holding a special character. */
  predicate NeedsQuotes(tag: string) {
    tag == "" || Lower(tag) == "null" || exists i :: 0 <= i < |tag| && Special(tag[i])
  }

  /** Inside quotes, `"` and `\` are preceded by a backslash; reading the
      element back drops those backslashes again. */
  function Escape(tag: string): (r: string)
    ensures |r| >= |tag|
    ensures ',' !in tag ==> ',' !in r
    ensures Unescape(r) == tag
    ensures Escaped(r)
    ensures |r| == |tag| + Occurrences(tag, '"') + Occurrences(tag, '\\')
  {
    if |tag| == 0 then ""
    else
      var rest := Escape(tag[1..]);
      var head := if tag[0] == '"' || tag[0] == '\\' then ['\\', tag[0]] else [tag[0]];
      assert (head + rest)[|head|..] == rest;
      assert [tag[0]] + tag[1..] == tag;
      head + rest
  }

  /** The inside of a well-formed quoted element: every `"` and every
      backslash is escaped by a backslash, so a reader finds no bare quote
      and no backslash at the very end. */
  predicate Escaped(t: string) {
    if |t| == 0 then true
    else if t[0] == '\\' then |t| >= 2 && Escaped(t[2..])
    else t[0] != '"' && Escaped(t[1..])
  }

  /** How an array reader takes a quoted element back: a backslash is
      dropped and the character after it kept as it is. */
  function Unescape(t: string): (r: string)
    ensures |r| <= |t|
  {
    if |t| == 0 then ""
    else if t[0] == '\\' && |t| >= 2 then [t[1]] + Unescape(t[2..])
    else [t[0]] + Unescape(t[1..])
  }

  /** One element as the array output writes it: unchanged, or escaped and
      wrapped in double quotes when it needs quotes. */
  function Quote(tag: string): (r: string)
    ensures !NeedsQuotes(tag) ==> r == tag
    ensures NeedsQuotes(tag) ==> |r| >= |tag| + 2 && r[0] == '"' && r[|r| - 1] == '"'
    ensures NeedsQuotes(tag) ==> Escaped(r[1..|r| - 1]) && Unescape(r[1..|r| - 1]) == tag
    ensures ',' !in tag ==> ',' !in r
  {
    if NeedsQuotes(tag) then
      var r := "\"" + Escape(tag) + "\"";
      assert r[1..|r| - 1] == Escape(tag);
      r
    else
      tag
  }

  /** The tags as the database prints them back, one element each. */
  function Shown(tags: seq<string>): (r: seq<string>)
    ensures |r| == |tags|
    ensures forall i :: 0 <= i < |tags| ==> r[i] == Quote(tags[i])
  {
    seq(|tags|, i requires 0 <= i < |tags| => Quote(tags[i]))
  }

  /** A brace-delimited text whose inside is `parts` joined by commas. */
  function Braced(parts: seq<string>): (text: string)
    ensures |text| >= 2 && text[0] == '{' && text[|text| - 1] == '}'
    ensures Inner(text) == Join(parts, ',')
  {
    "{" + Join(parts, ',') + "}"
  }

  /** The text form in which the database stores a list of tags: each tag as
      the array output writes it, joined by commas inside braces. Decoding it
      gives the printed elements back, quotes included, for a non-empty list
      of comma-free tags (`ExactWhenUnquoted` says when that is the submitted
      list itself). */
  function Encode(tags: seq<string>): (text: string)
    ensures |text| >= 2 && text[0] == '{' && text[|text| - 1] == '}'
    ensures Plain(tags) ==> Decode(text) == Shown(tags)
  {
    var shown := Shown(tags);
    var text := Braced(shown);
    if Plain(tags) then
      SplitJoin(shown, ',');
      text
    else
      text
  }

  /** A list the text form carries: at least one tag, and no tag containing
      the separator. */
  predicate Plain(tags: seq<string>) {
    |tags| > 0 && forall i :: 0 <= i < |tags| ==> ',' !in tags[i]
  }

  /** A list the text form carries unchanged: at least one tag, and no tag
      the array output quotes. A comma is special, so such a list is plain. */
  predicate Unquoted(tags: seq<string>) {
    |tags| > 0 && forall i :: 0 <= i < |tags| ==> !NeedsQuotes(tags[i])
  }

  /** The database prints a list back unchanged exactly when no tag needs
      quotes. */
  lemma ShownUnchanged(tags: seq<string>)
    ensures Shown(tags) == tags <==> forall i :: 0 <= i < |tags| ==> !NeedsQuotes(tags[i])
  {
    if Shown(tags) == tags {
      forall i | 0 <= i < |tags|
        ensures !NeedsQuotes(tags[i])
      {
        assert |Quote(tags[i])| == |tags[i]|;
      }
    }
  }

  /** Decoding a brace-delimited join of a non-empty list of comma-free
      tags gives the list back: the decoder's own round trip, apart from
      any quoting. */
  lemma DecodeBraced(tags: seq<string>)
    requires Plain(tags)
    ensures Decode(Braced(tags)) == tags
  {
    SplitJoin(tags, ',');
  }

  /** Decoding the stored text gives the submitted list back exactly when no
      tag needs quotes. */
  lemma ExactWhenUnquoted(tags: seq<string>)
    requires Plain(tags)
    ensures Decode(Encode(tags)) == tags <==> Unquoted(tags)
  {
    ShownUnchanged(tags);
  }

  /** A genre with a space reads back in double quotes: the edit form of a
      record stored with the genre `a b` shows `"a b"`. */
  lemma SpacedTagShownQuoted()
    ensures Decode(Encode(["a b"])) == ["\"" + "a b" + "\""]
  {
    var tag := "a b";
    assert tag[0] == 'a' && tag[1] == ' ' && tag[2] == 'b';
    assert Special(tag[1]);
    assert Escape(tag) == tag by {
      EscapePlain(tag);
    }
    assert Plain([tag]);
    assert NeedsQuotes(tag);
    assert Quote(tag) == "\"" + tag + "\"";
    assert Shown([tag]) == [Quote(tag)];
    assert Decode(Encode([tag])) == [Quote(tag)];
  }

  /** Escaping leaves a text without `"` and `\\` as it is. */
  lemma {:induction false} EscapePlain(tag: string)
    requires forall i :: 0 <= i < |tag| ==> tag[i] != '"' && tag[i] != '\\'
    ensures Escape(tag) == tag
    decreases |tag|
  {
    if |tag| > 0 {
      EscapePlain(tag[1..]);
      assert [tag[0]] + tag[1..] == tag;
    }
  }

  /** An empty list is stored as `{}` and reads back as one empty tag. */
  lemma DecodeEmpty()
    ensures Encode([]) == "{}"
    ensures Decode("{}") == [""]
  {
    assert Inner("{}") == "";
  }

  /** The other direction: every brace-delimited text is its pieces joined
      by commas inside braces, so decoding loses nothing. */
  lemma EncodeDecode(text: string)
    requires |text| >= 2 && text[0] == '{' && text[|text| - 1] == '}'
    ensures Braced(Decode(text)) == text
  {
    JoinSplit(Inner(text), ',');
    assert text == [text[0]] + Inner(text) + [text[|text| - 1]];
  }

  /** A brace-delimited text is the encoding of its decoding when no piece
      needs quotes. */
  lemma ReencodeUnquoted(text: string)
    requires |text| >= 2 && text[0] == '{' && text[|text| - 1] == '}'
    requires Unquoted(Decode(text))
    ensures Encode(Decode(text)) == text
  {
    EncodeDecode(text);
    ShownUnchanged(Decode(text));
  }
}

=== FILE: grouping.dfy ===
/** The venue listing (`venues` with its inner `hasItem`): the ten newest
    venues, taken highest id first, are gathered into areas. An area is keyed
    by (city, state) compared case-insensitively; a venue joins the first area
    whose key matches its own, or opens a new area labelled with its own city
    and state. Only the venue that opens an area carries its number of
    upcoming shows; the others carry only id and name. */
module Grouping {
  import opened Optional
  import opened Text
  import opened Tables
  import opened Schema
  import opened ShowLists
  import opened Listings

  /** One venue as the listing shows it. */
  datatype VenueItem = VenueItem(id: int, name: string, numUpcomingShows: Option<nat>)

  /** One area: the label and the venues in it. */
  datatype Area = Area(city: string, state: string, venues: seq<VenueItem>)

  /** The case-insensitive identity of a (city, state) pair. */
  datatype Key = Key(city: string, state: string)

  function KeyOf(city: string, state: string): Key {
    Key(Lower(city), Lower(state))
  }

  function VenueKey(v: Venue): Key {
    KeyOf(v.city, v.state)
  }

  function AreaKey(a: Area): Key {
    KeyOf(a.city, a.state)
  }

  /** `hasItem(data, 'city', 'state', venue)`: a linear scan for the first
      area whose city and state equal the venue's, ignoring case. */
  function HasItem(areas: seq<Area>, v: Venue): (r: Option<nat>)
    ensures r.Some? ==> r.value < |areas| && AreaKey(areas[r.value]) == VenueKey(v)
    ensures r.Some? ==> forall i :: 0 <= i < r.value ==> AreaKey(areas[i]) != VenueKey(v)
    ensures r.None? <==> forall i :: 0 <= i < |areas| ==> AreaKey(areas[i]) != VenueKey(v)
  {
    if |areas| == 0 then None
    else if Lower(areas[0].city) == Lower(v.city) && Lower(areas[0].state) == Lower(v.state) then Some(0)
    else
      match HasItem(areas[1..], v)
      case None => None
      case Some(i) => Some(i + 1)
  }

  /** The entry of the venue that opens an area. */
  function Opener(s: Store, now: int, v: Venue): VenueItem {
    VenueItem(v.id, v.name, Some(UpcomingCount(s, OfVenue, v.id, now)))
  }

  /** The entry of a venue that joins an existing area. */
  function Joiner(v: Venue): VenueItem {
    VenueItem(v.id, v.name, None)
  }

  /** One pass of the loop of `venues` for venue `v`. */
  function Place(s: Store, now: int, areas: seq<Area>, v: Venue): seq<Area> {
    match HasItem(areas, v)
    case None => areas + [Area(v.city, v.state, [Opener(s, now, v)])]
    case Some(i) => areas[i := areas[i].(venues := areas[i].venues + [Joiner(v)])]
  }

  /** The loop of `venues` over `vs`, in order. Each venue adds exactly one
      entry, so the area sizes sum to the number of venues. */
  function GroupAll(s: Store, now: int, vs: seq<Venue>): (r: seq<Area>)
    ensures Total(r) == |vs|
    ensures |r| <= |vs| && (|vs| > 0 ==> |r| > 0)
  {
    if |vs| == 0 then []
    else
      var areas := GroupAll(s, now, vs[..|vs| - 1]);
      PlaceTotal(s, now, areas, vs[|vs| - 1]);
      Place(s, now, areas, vs[|vs| - 1])
  }

  /** `venues()`: the areas of the ten newest venues at time `now`: at most
      one area per venue taken, and at least one when any venue is taken. The
      lemmas `Venues*` below describe the areas themselves. */
  function Venues(s: Store, now: int): (r: seq<Area>)
    requires WellFormed(s)
    ensures |r| <= |NewestVenues(s)|
    ensures |NewestVenues(s)| > 0 ==> |r| > 0
  {
    GroupAll(s, now, NewestVenues(s))
  }

  // ---------------------------------------------------------------------------
  // A reference description of the grouping

  /** The distinct keys of `vs`, in order of first occurrence. */
  function Keys(vs: seq<Venue>): seq<Key>
  {
    if |vs| == 0 then []
    else
      var ks := Keys(vs[..|vs| - 1]);
      if VenueKey(vs[|vs| - 1]) in ks then ks else ks + [VenueKey(vs[|vs| - 1])]
  }

  lemma KeysAppend(init: seq<Venue>, v: Venue)
    ensures Keys(init + [v]) == if VenueKey(v) in Keys(init) then Keys(init) else Keys(init) + [VenueKey(v)]
  {
    assert (init + [v])[..|init|] == init;
  }

  /** No key is listed twice. */
  lemma {:induction false} KeysDistinct(vs: seq<Venue>)
    ensures forall i, j :: 0 <= i < j < |Keys(vs)| ==> Keys(vs)[i] != Keys(vs)[j]
    decreases |vs|
  {
    if |vs| > 0 {
      KeysDistinct(vs[..|vs| - 1]);
    }
  }

  /** Every venue's key is listed. */
  lemma {:induction false} KeysCover(vs: seq<Venue>)
    ensures forall j :: 0 <= j < |vs| ==> VenueKey(vs[j]) in Keys(vs)
    decreases |vs|
  {
    if |vs| > 0 {
      var init := vs[..|vs| - 1];
      KeysCover(init);
      assert forall j :: 0 <= j < |init| ==> vs[j] == init[j];
    }
  }

  function HasKey(k: Key): Venue -> bool {
    v => VenueKey(v) == k
  }

  /** The venues of `vs` with key `k`, in order. */
  function Members(vs: seq<Venue>, k: Key): seq<Venue> {
    Filter(vs, HasKey(k))
  }

  lemma MembersAppend(init: seq<Venue>, v: Venue, k: Key)
    ensures Members(init + [v], k) == Members(init, k) + (if VenueKey(v) == k then [v] else [])
  {
    FilterAppend(init, v, HasKey(k));
  }

  /** The entries of an area whose venues are `ms`: the first one opens it, the
      others join it. */
  function Items(s: Store, now: int, ms: seq<Venue>): (r: seq<VenueItem>)
    ensures |r| == |ms|
    ensures forall j :: 0 <= j < |r| ==> r[j].id == ms[j].id && r[j].name == ms[j].name
    ensures |r| > 0 ==> r[0].numUpcomingShows == Some(UpcomingCount(s, OfVenue, ms[0].id, now))
    ensures forall j :: 0 < j < |r| ==> r[j].numUpcomingShows.None?
  {
    seq(|ms|, j requires 0 <= j < |ms| => if j == 0 then Opener(s, now, ms[0]) else Joiner(ms[j]))
  }

  lemma ItemsAppend(s: Store, now: int, ms: seq<Venue>, v: Venue)
    requires |ms| > 0
    ensures Items(s, now, ms + [v]) == Items(s, now, ms) + [Joiner(v)]
  {
    assert (ms + [v])[0] == ms[0];
  }

  /** Area `a` is the area of key `k` among venues `vs`: it has that key, is
      labelled with the city and state of the first venue with that key, and
      lists exactly the venues with that key, in order, the first as opener. */
  ghost predicate AreaFor(s: Store, now: int, vs: seq<Venue>, k: Key, a: Area) {
    var ms := Members(vs, k);
    && AreaKey(a) == k
    && |ms| > 0
    && a.city == ms[0].city && a.state == ms[0].state
    && a.venues == Items(s, now, ms)
  }

  /** What the loop computes, stated without the loop: one area per distinct
      key, in order of first occurrence. */
  ghost predicate Describes(s: Store, now: int, vs: seq<Venue>, areas: seq<Area>) {
    && |areas| == |Keys(vs)|
    && forall i :: 0 <= i < |areas| ==> AreaFor(s, now, vs, Keys(vs)[i], areas[i])
  }

  /** A venue with another key leaves an area as it was. */
  lemma AreaKept(s: Store, now: int, init: seq<Venue>, v: Venue, k: Key, a: Area)
    requires AreaFor(s, now, init, k, a) && k != VenueKey(v)
    ensures AreaFor(s, now, init + [v], k, a)
  {
    MembersAppend(init, v, k);
  }

  /** A venue with the area's key is appended to it as a joiner. */
  lemma AreaJoined(s: Store, now: int, init: seq<Venue>, v: Venue, a: Area)
    requires AreaFor(s, now, init, VenueKey(v), a)
    ensures AreaFor(s, now, init + [v], VenueKey(v), a.(venues := a.venues + [Joiner(v)]))
  {
    MembersAppend(init, v, VenueKey(v));
    ItemsAppend(s, now, Members(init, VenueKey(v)), v);
  }

  /** A venue with a key no earlier venue has opens its own area. */
  lemma AreaOpened(s: Store, now: int, init: seq<Venue>, v: Venue)
    requires forall j :: 0 <= j < |init| ==> VenueKey(init[j]) != VenueKey(v)
    ensures AreaFor(s, now, init + [v], VenueKey(v), Area(v.city, v.state, [Opener(s, now, v)]))
  {
    var k := VenueKey(v);
    MembersAppend(init, v, k);
    FilterNone(init, HasKey(k));
    assert Members(init + [v], k) == [v];
    assert Items(s, now, [v]) == [Opener(s, now, v)];
  }

  /** A venue whose key is already an area's key joins that area. */
  lemma PlaceJoins(s: Store, now: int, init: seq<Venue>, areas: seq<Area>, v: Venue, p: nat)
    requires Describes(s, now, init, areas)
    requires p < |Keys(init)| && Keys(init)[p] == VenueKey(v)
    ensures Describes(s, now, init + [v], Place(s, now, areas, v))
  {
    JoinFindsArea(s, now, init, areas, v, p);
    assert Place(s, now, areas, v) == areas[p := areas[p].(venues := areas[p].venues + [Joiner(v)])];
    AreasJoined(s, now, init, areas, v, p);
  }

  /** Appending the venue to the area of its key describes the longer list. */
  lemma AreasJoined(s: Store, now: int, init: seq<Venue>, areas: seq<Area>, v: Venue, p: nat)
    requires Describes(s, now, init, areas)
    requires p < |Keys(init)| && Keys(init)[p] == VenueKey(v)
    ensures Describes(s, now, init + [v], areas[p := areas[p].(venues := areas[p].venues + [Joiner(v)])])
  {
    var ks := Keys(init);
    KeysAppend(init, v);
    KeysDistinct(init);
    assert Keys(init + [v]) == ks;
    var areas' := areas[p := areas[p].(venues := areas[p].venues + [Joiner(v)])];
    forall i | 0 <= i < |areas'|
      ensures AreaFor(s, now, init + [v], ks[i], areas'[i])
    {
      if i == p {
        AreaJoined(s, now, init, v, areas[p]);
      } else {
        AreaKept(s, now, init, v, ks[i], areas[i]);
      }
    }
  }

  /** `hasItem` finds the area of the venue's key, and no earlier one. */
  lemma JoinFindsArea(s: Store, now: int, init: seq<Venue>, areas: seq<Area>, v: Venue, p: nat)
    requires Describes(s, now, init, areas)
    requires p < |Keys(init)| && Keys(init)[p] == VenueKey(v)
    ensures HasItem(areas, v) == Some(p)
  {
    forall i | 0 <= i < |areas|
      ensures AreaKey(areas[i]) == Keys(init)[i]
    {
      DescribedKey(s, now, init, areas, i);
    }
    KeysDistinct(init);
    FirstKeyFound(areas, Keys(init), v, p);
  }

  /** Among areas with distinct keys, `hasItem` finds the one with the
      venue's key. */
  lemma FirstKeyFound(areas: seq<Area>, ks: seq<Key>, v: Venue, p: nat)
    requires |areas| == |ks| && forall i :: 0 <= i < |areas| ==> AreaKey(areas[i]) == ks[i]
    requires forall i, j :: 0 <= i < j < |ks| ==> ks[i] != ks[j]
    requires p < |ks| && ks[p] == VenueKey(v)
    ensures HasItem(areas, v) == Some(p)
  {
    assert AreaKey(areas[p]) == VenueKey(v);
  }

  /** The area at position `i` has the `i`-th key. */
  lemma DescribedKey(s: Store, now: int, vs: seq<Venue>, areas: seq<Area>, i: nat)
    requires Describes(s, now, vs, areas) && i < |areas|
    ensures AreaKey(areas[i]) == Keys(vs)[i]
  {
    assert AreaFor(s, now, vs, Keys(vs)[i], areas[i]);
  }


  /** A venue whose key no area has opens a new area at the end. */
  lemma {:induction false} PlaceOpens(s: Store, now: int, init: seq<Venue>, areas: seq<Area>, v: Venue)
    requires Describes(s, now, init, areas)
    requires VenueKey(v) !in Keys(init)
    ensures Describes(s, now, init + [v], Place(s, now, areas, v))
  {
    var vs, ks, k := init + [v], Keys(init), VenueKey(v);
    KeysAppend(init, v);
    KeysCover(init);
    assert Keys(vs) == ks + [k];
    assert HasItem(areas, v).None?;
    var areas' := Place(s, now, areas, v);
    assert areas' == areas + [Area(v.city, v.state, [Opener(s, now, v)])];
    forall i | 0 <= i < |areas'|
      ensures AreaFor(s, now, vs, Keys(vs)[i], areas'[i])
    {
      if i == |areas| {
        AreaOpened(s, now, init, v);
      } else {
        AreaKept(s, now, init, v, ks[i], areas[i]);
      }
    }
  }

  /** The loop of `venues` computes the grouping the reference describes. */
  lemma {:induction false} GroupAllDescribed(s: Store, now: int, vs: seq<Venue>)
    ensures Describes(s, now, vs, GroupAll(s, now, vs))
    decreases |vs|
  {
    if |vs| > 0 {
      var init, v := vs[..|vs| - 1], vs[|vs| - 1];
      assert vs == init + [v];
      GroupAllDescribed(s, now, init);
      var areas := GroupAll(s, now, init);
      if VenueKey(v) in Keys(init) {
        var p :| 0 <= p < |Keys(init)| && Keys(init)[p] == VenueKey(v);
        PlaceJoins(s, now, init, areas, v, p);
      } else {
        PlaceOpens(s, now, init, areas, v);
      }
    }
  }

  // ---------------------------------------------------------------------------
  // Properties of the listing

  /** Number of venue entries over all areas. */
  function Total(areas: seq<Area>): nat {
    if |areas| == 0 then 0 else Total(areas[..|areas| - 1]) + |areas[|areas| - 1].venues|
  }

  lemma {:induction false} TotalGrow(areas: seq<Area>, p: nat, a: Area)
    requires p < |areas| && |a.venues| == |areas[p].venues| + 1
    ensures Total(areas[p := a]) == Total(areas) + 1
    decreases |areas|
  {
    var n := |areas|;
    if p < n - 1 {
      assert areas[p := a][..n - 1] == areas[..n - 1][p := a];
      TotalGrow(areas[..n - 1], p, a);
    } else {
      assert areas[p := a][..n - 1] == areas[..n - 1];
    }
  }

  /** One pass of the loop adds exactly one entry. */
  lemma PlaceTotal(s: Store, now: int, areas: seq<Area>, v: Venue)
    ensures Total(Place(s, now, areas, v)) == Total(areas) + 1
  {
    match HasItem(areas, v)
    case None =>
      assert (areas + [Area(v.city, v.state, [Opener(s, now, v)])])[..|areas|] == areas;
    case Some(i) =>
      TotalGrow(areas, i, areas[i].(venues := areas[i].venues + [Joiner(v)]));
  }

  lemma DescribedKeysDistinct(s: Store, now: int, vs: seq<Venue>, areas: seq<Area>)
    requires Describes(s, now, vs, areas)
    ensures forall i, j :: 0 <= i < j < |areas| ==> AreaKey(areas[i]) != AreaKey(areas[j])
  {
    KeysDistinct(vs);
    forall i, j | 0 <= i < j < |areas|
      ensures AreaKey(areas[i]) != AreaKey(areas[j])
    {
      assert AreaFor(s, now, vs, Keys(vs)[i], areas[i]);
      assert AreaFor(s, now, vs, Keys(vs)[j], areas[j]);
    }
  }

  lemma DescribedCover(s: Store, now: int, vs: seq<Venue>, areas: seq<Area>, j: int)
    requires Describes(s, now, vs, areas)
    requires 0 <= j < |vs|
    ensures exists i :: 0 <= i < |areas| && AreaKey(areas[i]) == VenueKey(vs[j])
  {
    KeysCover(vs);
    var ks := Keys(vs);
    var i :| 0 <= i < |ks| && ks[i] == VenueKey(vs[j]);
    assert AreaFor(s, now, vs, ks[i], areas[i]);
  }

  /** Ids are distinct along a sequence in descending id order. */
  lemma DescendingIdsDistinct(vs: seq<Venue>, j: int, j': int)
    requires Descending(vs, VenueId)
    requires 0 <= j < |vs| && 0 <= j' < |vs| && vs[j].id == vs[j'].id
    ensures j == j'
  {
  }

  lemma DescribedMembership(s: Store, now: int, vs: seq<Venue>, areas: seq<Area>, i: int, j: int)
    requires Describes(s, now, vs, areas)
    requires Descending(vs, VenueId)
    requires 0 <= i < |areas| && 0 <= j < |vs|
    ensures AreaKey(areas[i]) == VenueKey(vs[j]) <==> vs[j].id in AreaIds(areas[i])
  {
    var k := Keys(vs)[i];
    var ms := Members(vs, k);
    var v := vs[j];
    assert AreaFor(s, now, vs, k, areas[i]);
    if AreaKey(areas[i]) == VenueKey(v) {
      assert HasKey(k)(v);
      assert v in ms;
      var t :| 0 <= t < |ms| && ms[t] == v;
      assert AreaIds(areas[i])[t] == v.id;
    }
    if v.id in AreaIds(areas[i]) {
      var t :| 0 <= t < |ms| && AreaIds(areas[i])[t] == v.id;
      assert ms[t] in vs && HasKey(k)(ms[t]);
      var j' :| 0 <= j' < |vs| && vs[j'] == ms[t];
      DescendingIdsDistinct(vs, j, j');
    }
  }

  /** No two areas have keys equal up to case. */
  lemma VenuesKeysDistinct(s: Store, now: int)
    requires WellFormed(s)
    ensures forall i, j :: 0 <= i < j < |Venues(s, now)| ==> AreaKey(Venues(s, now)[i]) != AreaKey(Venues(s, now)[j])
  {
    GroupAllDescribed(s, now, NewestVenues(s));
    DescribedKeysDistinct(s, now, NewestVenues(s), Venues(s, now));
  }

  /** Every venue taken has an area with its key. */
  lemma VenuesCover(s: Store, now: int)
    requires WellFormed(s)
    ensures forall j :: 0 <= j < |NewestVenues(s)| ==>
              exists i :: 0 <= i < |Venues(s, now)| && AreaKey(Venues(s, now)[i]) == VenueKey(NewestVenues(s)[j])
  {
    GroupAllDescribed(s, now, NewestVenues(s));
    var vs, areas := NewestVenues(s), Venues(s, now);
    forall j | 0 <= j < |vs|
      ensures exists i :: 0 <= i < |areas| && AreaKey(areas[i]) == VenueKey(vs[j])
    {
      DescribedCover(s, now, vs, areas, j);
    }
  }

  /** Area `a` of the listing of `vs` is non-empty, lists its venues highest
      id first, is labelled with the original-case city and state of its
      first venue, and only that first venue's entry carries the number of
      upcoming shows. */
  ghost predicate AreaShaped(s: Store, now: int, vs: seq<Venue>, a: Area) {
    && |a.venues| > 0
    && (forall j :: 0 <= j < |a.venues| ==> (a.venues[j].numUpcomingShows.Some? <==> j == 0))
    && a.venues[0].numUpcomingShows == Some(UpcomingCount(s, OfVenue, a.venues[0].id, now))
    && (forall j, k :: 0 <= j < k < |a.venues| ==> a.venues[j].id > a.venues[k].id)
    && (exists m :: m in vs && m.id == a.venues[0].id && m.city == a.city && m.state == a.state)
  }

  /** Every area of the listing has the shape above. */
  lemma VenuesAreaShape(s: Store, now: int)
    requires WellFormed(s)
    ensures forall i :: 0 <= i < |Venues(s, now)| ==> AreaShaped(s, now, NewestVenues(s), Venues(s, now)[i])
  {
    GroupAllDescribed(s, now, NewestVenues(s));
    var vs, areas := NewestVenues(s), Venues(s, now);
    forall i | 0 <= i < |areas|
      ensures AreaShaped(s, now, vs, areas[i])
    {
      assert AreaFor(s, now, vs, Keys(vs)[i], areas[i]);
      AreaShape(s, now, vs, Keys(vs)[i], areas[i]);
    }
  }

  /** The shape of one area of venues in descending id order. */
  lemma AreaShape(s: Store, now: int, vs: seq<Venue>, k: Key, a: Area)
    requires Descending(vs, VenueId) && AreaFor(s, now, vs, k, a)
    ensures AreaShaped(s, now, vs, a)
  {
    var ms := Members(vs, k);
    FilterDescending(vs, VenueId, HasKey(k));
    forall j, j' | 0 <= j < j' < |a.venues|
      ensures a.venues[j].id > a.venues[j'].id
    {
      assert VenueId(ms[j]) > VenueId(ms[j']);
    }
    assert ms[0] in vs;
  }



  /** A venue taken is listed in an area exactly when the area's key is the
      venue's: with distinct keys, in exactly one area. */
  lemma VenuesMembership(s: Store, now: int)
    requires WellFormed(s)
    ensures forall i, j :: 0 <= i < |Venues(s, now)| && 0 <= j < |NewestVenues(s)| ==>
              (AreaKey(Venues(s, now)[i]) == VenueKey(NewestVenues(s)[j]) <==> NewestVenues(s)[j].id in AreaIds(Venues(s, now)[i]))
  {
    GroupAllDescribed(s, now, NewestVenues(s));
    var vs, areas := NewestVenues(s), Venues(s, now);
    forall i, j | 0 <= i < |areas| && 0 <= j < |vs|
      ensures AreaKey(areas[i]) == VenueKey(vs[j]) <==> vs[j].id in AreaIds(areas[i])
    {
      DescribedMembership(s, now, vs, areas, i, j);
    }
  }

  /** Every listed key is the key of some venue. */
  lemma {:induction false} KeysHaveMembers(vs: seq<Venue>)
    ensures forall i :: 0 <= i < |Keys(vs)| ==> |Members(vs, Keys(vs)[i])| > 0
    decreases |vs|
  {
    if |vs| > 0 {
      var init, v := vs[..|vs| - 1], vs[|vs| - 1];
      assert vs == init + [v];
      KeysHaveMembers(init);
      KeysAppend(init, v);
      forall i | 0 <= i < |Keys(vs)|
        ensures |Members(vs, Keys(vs)[i])| > 0
      {
        MembersAppend(init, v, Keys(vs)[i]);
      }
    }
  }

  /** Keys are listed in order of first occurrence: the first venue of an
      earlier key comes before, so has a higher id than, the first venue of a
      later key. */
  lemma {:induction false} OpenersDescend(vs: seq<Venue>)
    requires Descending(vs, VenueId)
    ensures forall i :: 0 <= i < |Keys(vs)| ==> |Members(vs, Keys(vs)[i])| > 0
    ensures forall i, i' :: 0 <= i < i' < |Keys(vs)| ==>
              Members(vs, Keys(vs)[i])[0].id > Members(vs, Keys(vs)[i'])[0].id
    decreases |vs|
  {
    KeysHaveMembers(vs);
    if |vs| > 0 {
      var init, v := vs[..|vs| - 1], vs[|vs| - 1];
      assert vs == init + [v];
      assert Descending(init, VenueId) by {
        forall i, j | 0 <= i < j < |init|
          ensures VenueId(init[i]) > VenueId(init[j])
        {
          assert init[i] == vs[i] && init[j] == vs[j];
        }
      }
      OpenersDescend(init);
      OpenersStep(init, v);
    }
  }

  /** The inductive step of `OpenersDescend`: appending one venue. */
  lemma OpenersStep(init: seq<Venue>, v: Venue)
    requires Descending(init + [v], VenueId)
    requires forall i, i' :: 0 <= i < i' < |Keys(init)| ==>
               |Members(init, Keys(init)[i])| > 0 && |Members(init, Keys(init)[i'])| > 0 &&
               Members(init, Keys(init)[i])[0].id > Members(init, Keys(init)[i'])[0].id
    ensures forall i :: 0 <= i < |Keys(init + [v])| ==> |Members(init + [v], Keys(init + [v])[i])| > 0
    ensures forall i, i' :: 0 <= i < i' < |Keys(init + [v])| ==>
              Members(init + [v], Keys(init + [v])[i])[0].id > Members(init + [v], Keys(init + [v])[i'])[0].id
  {
    var vs, ks := init + [v], Keys(init);
    KeysHaveMembers(vs);
    KeysAppend(init, v);
    OpenersKept(init, v);
    var ks' := Keys(vs);
    if VenueKey(v) !in ks {
      NewKeyOpener(init, v);
      assert ks' == ks + [VenueKey(v)];
      forall i, i' | 0 <= i < i' < |ks'|
        ensures Members(vs, ks'[i])[0].id > Members(vs, ks'[i'])[0].id
      {
        assert ks'[i] == ks[i];
        if i' < |ks| {
          assert ks'[i'] == ks[i'];
        } else {
          assert Members(vs, ks'[i'])[0] == v;
        }
      }
    } else {
      assert ks' == ks;
    }
  }

  /** Appending a venue leaves the first venue of every existing key as it
      was; that venue comes before the appended one. */
  lemma OpenersKept(init: seq<Venue>, v: Venue)
    requires Descending(init + [v], VenueId)
    ensures forall i :: 0 <= i < |Keys(init)| ==>
              && |Members(init, Keys(init)[i])| > 0
              && |Members(init + [v], Keys(init)[i])| > 0
              && Members(init + [v], Keys(init)[i])[0] == Members(init, Keys(init)[i])[0]
              && Members(init, Keys(init)[i])[0].id > v.id
  {
    KeysHaveMembers(init);
    var vs, ks := init + [v], Keys(init);
    forall i | 0 <= i < |ks|
      ensures |Members(vs, ks[i])| >= |Members(init, ks[i])| > 0
      ensures Members(vs, ks[i])[0] == Members(init, ks[i])[0]
      ensures Members(init, ks[i])[0].id > v.id
    {
      MembersAppend(init, v, ks[i]);
      var m := Members(init, ks[i])[0];
      assert m in init;
      var j :| 0 <= j < |init| && init[j] == m;
      assert VenueId(vs[j]) > VenueId(vs[|init|]);
    }
  }

  /** A venue whose key is new is the only member of its key so far. */
  lemma NewKeyOpener(init: seq<Venue>, v: Venue)
    requires VenueKey(v) !in Keys(init)
    ensures Members(init + [v], VenueKey(v)) == [v]
  {
    KeysCover(init);
    FilterNone(init, HasKey(VenueKey(v)));
    MembersAppend(init, v, VenueKey(v));
  }

  /** Areas appear in order of first occurrence: the venue opening an earlier
      area was taken before (has a higher id than) the one opening a later
      area. */
  lemma VenuesFirstOccurrence(s: Store, now: int)
    requires WellFormed(s)
    ensures forall i :: 0 <= i < |Venues(s, now)| ==> |Venues(s, now)[i].venues| > 0
    ensures forall i, i' :: 0 <= i < i' < |Venues(s, now)| ==>
              Venues(s, now)[i].venues[0].id > Venues(s, now)[i'].venues[0].id
  {
    GroupAllDescribed(s, now, NewestVenues(s));
    var vs, areas := NewestVenues(s), Venues(s, now);
    OpenersDescend(vs);
    var ks := Keys(vs);
    forall i | 0 <= i < |areas|
      ensures |areas[i].venues| > 0 && areas[i].venues[0].id == Members(vs, ks[i])[0].id
    {
      assert AreaFor(s, now, vs, ks[i], areas[i]);
    }
  }

  /** The ids listed in an area, in order. */
  function AreaIds(a: Area): seq<int> {
    seq(|a.venues|, j requires 0 <= j < |a.venues| => a.venues[j].id)
  }
}

=== FILE: like.dfy ===
/** The database's `ILIKE` operator, which the search handlers use with the
    pattern `'%' + search_term + '%'`. In a LIKE pattern `%` matches any run
    of characters, `_` matches exactly one character and a backslash makes the
    character after it literal; every other character matches itself. `ILIKE`
    compares after case folding. */
module Like {
  import opened Text

  /** Characters that have a meaning in a LIKE pattern. */
  predicate IsWildcard(c: char) {
    c == '%' || c == '_' || c == '\\'
  }

  /** A search term with no pattern characters in it. */
  predicate Literal(p: string) {
    forall i :: 0 <= i < |p| ==> !IsWildcard(p[i])
  }

  /** Does text `t` match LIKE pattern `p` (case-sensitively)? A pattern that
      ends in a lone escape character is an error in the database; it matches
      nothing here, and the search patterns of the application never end in
      one because their last character is a `%`. */
  function Match(p: string, t: string): (r: bool)
    ensures Literal(p) ==> (r <==> t == p)
    decreases |p|, |t|
  {
    if |p| == 0 then |t| == 0
    else if p[0] == '%' then Match(p[1..], t) || (|t| > 0 && Match(p, t[1..]))
    else if p[0] == '_' then |t| > 0 && Match(p[1..], t[1..])
    else if p[0] == '\\' then
      |p| > 1 && |t| > 0 && t[0] == p[1] && Match(p[2..], t[1..])
    else
      assert Literal(p) ==> Literal(p[1..]) by {
        if Literal(p) {
          forall i | 0 <= i < |p[1..]|
            ensures !IsWildcard(p[1..][i])
          {
            assert p[1..][i] == p[i + 1];
          }
        }
      }
      assert |t| > 0 ==> (t == p <==> t[0] == p[0] && t[1..] == p[1..]) by {
        if |t| > 0 && t[0] == p[0] && t[1..] == p[1..] {
          assert t == [t[0]] + t[1..] && p == [p[0]] + p[1..];
        }
      }
      |t| > 0 && t[0] == p[0] && Match(p[1..], t[1..])
  }

  /** The pattern the search handlers build from a search term. */
  function Contains(term: string): string {
    "%" + term + "%"
  }

  /** `t ILIKE pattern`. */
  predicate Ilike(t: string, pattern: string) {
    Match(Lower(pattern), Lower(t))
  }

  /** A lone `%` matches every text. */
  lemma {:induction false} PercentMatchesAll(t: string)
    ensures Match("%", t)
    decreases |t|
  {
    assert "%"[1..] == "";
    if |t| > 0 {
      PercentMatchesAll(t[1..]);
    }
  }

  /** A literal followed by `%` matches exactly the texts that start with the
      literal. */
  lemma {:induction false} LiteralThenPercent(q: string, t: string)
    requires Literal(q)
    ensures Match(q + "%", t) <==> |q| <= |t| && t[..|q|] == q
    decreases |q|
  {
    if |q| == 0 {
      assert q + "%" == "%";
      PercentMatchesAll(t);
    } else {
      var p := q + "%";
      assert p[0] == q[0] && !IsWildcard(q[0]);
      assert p[1..] == q[1..] + "%";
      assert Literal(q[1..]) by {
        forall i | 0 <= i < |q[1..]|
          ensures !IsWildcard(q[1..][i])
        {
          assert q[1..][i] == q[i + 1];
        }
      }
      if |t| > 0 {
        LiteralThenPercent(q[1..], t[1..]);
        if |q| <= |t| && t[..|q|] == q {
          assert t[1..][..|q| - 1] == t[..|q|][1..];
        }
        if t[0] == q[0] && |q| - 1 <= |t| - 1 && t[1..][..|q| - 1] == q[1..] {
          assert t[..|q|] == [t[0]] + t[1..][..|q| - 1];
          assert q == [q[0]] + q[1..];
        }
      }
    }
  }

  /** A leading `%` lets the rest of the pattern match any suffix of the text. */
  lemma {:induction false} LeadingPercent(r: string, t: string)
    ensures Match("%" + r, t) <==> exists k :: 0 <= k <= |t| && Match(r, t[k..])
    decreases |t|
  {
    var p := "%" + r;
    assert p[0] == '%' && p[1..] == r;
    assert t[0..] == t;
    if |t| > 0 {
      LeadingPercent(r, t[1..]);
      if Match(p, t[1..]) {
        var k :| 0 <= k <= |t[1..]| && Match(r, t[1..][k..]);
        assert t[1..][k..] == t[k + 1..];
      }
      if exists k :: 0 <= k <= |t| && Match(r, t[k..]) {
        var k :| 0 <= k <= |t| && Match(r, t[k..]);
        if k > 0 {
          assert t[1..][k - 1..] == t[k..];
        }
      }
    } else {
      if exists k :: 0 <= k <= |t| && Match(r, t[k..]) {
        var k :| 0 <= k <= |t| && Match(r, t[k..]);
        assert k == 0;
      }
    }
  }

  /** For a literal term, the pattern `%term%` matches exactly the texts that
      contain the term. */
  lemma ContainsIsSubstring(term: string, t: string)
    requires Literal(term)
    ensures Match(Contains(term), t) <==> IsSubstring(term, t)
  {
    assert Contains(term) == "%" + (term + "%");
    LeadingPercent(term + "%", t);
    if Match(Contains(term), t) {
      var k :| 0 <= k <= |t| && Match(term + "%", t[k..]);
      LiteralThenPercent(term, t[k..]);
      assert t[k..][..|term|] == t[k..k + |term|];
      assert OccursAt(term, t, k);
    }
    if IsSubstring(term, t) {
      var k :| 0 <= k <= |t| && OccursAt(term, t, k);
      LiteralThenPercent(term, t[k..]);
      assert t[k..][..|term|] == t[k..k + |term|];
    }
  }

  /** Case folding leaves pattern characters alone and never produces one. */
  lemma LowerKeepsLiteral(p: string)
    requires Literal(p)
    ensures Literal(Lower(p))
  {
  }

  lemma LowerContains(term: string)
    ensures Lower(Contains(term)) == Contains(Lower(term))
  {
    LowerAppend("%" + term, "%");
    LowerAppend("%", term);
  }

  /** The search condition `column ILIKE '%' + term + '%'`, for a term without
      pattern characters, holds exactly when the case-folded term is a
      substring of the case-folded column value. */
  lemma IlikeContainsIsSubstring(term: string, t: string)
    requires Literal(term)
    ensures Ilike(t, Contains(term)) <==> IsSubstring(Lower(term), Lower(t))
  {
    LowerContains(term);
    LowerKeepsLiteral(term);
    ContainsIsSubstring(Lower(term), Lower(t));
  }

  /** The empty search term matches every value (the pattern is `%%`). */
  lemma {:induction false} EmptyTermMatchesAll(t: string)
    ensures Ilike(t, Contains(""))
  {
    assert Lower(Contains("")) == "%%";
    assert "%%" == "%" + "%";
    LeadingPercent("%", Lower(t));
    PercentMatchesAll(Lower(t));
    assert Lower(t)[0..] == Lower(t);
  }
}

=== FILE: listings.dfy ===
/** The list pages: the ten most recent venues (the input of the grouping by
    city and state), the ten most recent artists as (id, name) pairs, and every
    show, newest first. "Most recent" means highest id. */
module Listings {
  import opened Optional
  import opened Tables
  import opened Schema

  /** The `limit(10)` of the venue and artist listings. */
  const ListingLimit: nat := 10

  /** `ORDER BY key DESC LIMIT n` over a table: at most `n` of its rows,
      highest key first, and every row left out is older (has a smaller key)
      than every row taken. */
  function NewestOf<T>(rows: seq<T>, key: T -> int, n: nat): (r: seq<T>)
    requires Ascending(rows, key)
    ensures |r| == Min(n, |rows|)
    ensures Descending(r, key)
    ensures forall j :: 0 <= j < |r| ==> r[j] in rows
    ensures forall i, j :: 0 <= i < |rows| && 0 <= j < |r| && rows[i] !in r ==> key(rows[i]) < key(r[j])
  {
    NewestRows(rows, key, n);
    OlderLeftOut(rows, key, n);
    Newest(rows, n)
  }

  /** A row missing from the newest `n` is one of the older rows. */
  lemma OlderLeftOut<T>(rows: seq<T>, key: T -> int, n: nat)
    requires Ascending(rows, key)
    ensures forall i, j :: 0 <= i < |rows| && 0 <= j < |Newest(rows, n)| && rows[i] !in Newest(rows, n) ==>
              key(rows[i]) < key(Newest(rows, n)[j])
  {
    var r := Newest(rows, n);
    NewestRows(rows, key, n);
    forall i | |rows| - |r| <= i < |rows|
      ensures rows[i] in r
    {
      assert r[|rows| - 1 - i] == rows[i];
    }
  }

  /** `Venue.query.order_by(desc(Venue.id)).limit(10)`. */
  function NewestVenues(s: Store): (r: seq<Venue>)
    requires WellFormed(s)
    ensures |r| == Min(ListingLimit, |s.venues|)
    ensures Descending(r, VenueId)
    ensures forall j :: 0 <= j < |r| ==> r[j] in s.venues
    ensures forall i, j :: 0 <= i < |s.venues| && 0 <= j < |r| && s.venues[i] !in r ==> s.venues[i].id < r[j].id
  {
    NewestOf(s.venues, VenueId, ListingLimit)
  }

  /** What the artist listing projects: `with_entities(Artist.id, Artist.name)`. */
  datatype ArtistSummary = ArtistSummary(id: int, name: string)

  /** The artist listing: at most ten artists of the store as (id, name),
      highest id first, every artist left out being older than every artist
      listed. */
  function NewestArtists(s: Store): (r: seq<ArtistSummary>)
    requires WellFormed(s)
    ensures |r| == Min(ListingLimit, |s.artists|)
    ensures forall j, k :: 0 <= j < k < |r| ==> r[j].id > r[k].id
    ensures forall j :: 0 <= j < |r| ==> SummarizesOne(s.artists, r[j])
    ensures forall i, j :: 0 <= i < |s.artists| && 0 <= j < |r| && Summary(s.artists[i]) !in r ==>
              s.artists[i].id < r[j].id
  {
    var rows := NewestOf(s.artists, ArtistId, ListingLimit);
    SummariesKeep(s.artists, rows);
    Summaries(rows)
  }

  function Summary(a: Artist): ArtistSummary {
    ArtistSummary(a.id, a.name)
  }

  /** `x` is the (id, name) of one of the artists. */
  predicate SummarizesOne(all: seq<Artist>, x: ArtistSummary) {
    exists i :: 0 <= i < |all| && Summary(all[i]) == x
  }

  function Summaries(rows: seq<Artist>): (r: seq<ArtistSummary>)
    ensures |r| == |rows|
    ensures forall j :: 0 <= j < |r| ==> r[j] == Summary(rows[j])
  {
    seq(|rows|, j requires 0 <= j < |rows| => Summary(rows[j]))
  }

  /** An artist whose summary is missing from the projection is missing from
      the projected rows. */
  lemma SummariesKeep(all: seq<Artist>, rows: seq<Artist>)
    requires forall j :: 0 <= j < |rows| ==> rows[j] in all
    ensures forall i :: 0 <= i < |all| && Summary(all[i]) !in Summaries(rows) ==> all[i] !in rows
    ensures forall j :: 0 <= j < |rows| ==> SummarizesOne(all, Summaries(rows)[j])
  {
    forall j | 0 <= j < |rows|
      ensures SummarizesOne(all, Summaries(rows)[j])
    {
      var i :| 0 <= i < |all| && all[i] == rows[j];
      assert Summary(all[i]) == Summaries(rows)[j];
    }
    forall i | 0 <= i < |all| && all[i] in rows
      ensures Summary(all[i]) in Summaries(rows)
    {
      var j :| 0 <= j < |rows| && rows[j] == all[i];
      assert Summaries(rows)[j] == Summary(all[i]);
    }
  }

  /** One line of the show listing. */
  datatype ShowLine = ShowLine(
    venueId: int,
    venueName: string,
    artistId: int,
    artistName: string,
    artistImageLink: Option<string>,
    startTime: int)

  /** `Show.query.order_by(desc(Show.id)).all()`: every show exactly once,
      highest id first. */
  function ShowsNewestFirst(s: Store): (r: seq<Show>)
    requires WellFormed(s)
    ensures multiset(r) == multiset(s.shows)
    ensures forall j :: 0 <= j < |r| ==> r[j] in s.shows
    ensures Descending(r, ShowId)
  {
    var r := NewestOf(s.shows, ShowId, |s.shows|);
    assert r == Reverse(s.shows);
    ReverseSameMultiset(s.shows);
    r
  }

  lemma {:induction false} ReverseSameMultiset<T>(s: seq<T>)
    ensures multiset(Reverse(s)) == multiset(s)
    decreases |s|
  {
    if |s| > 0 {
      var t := s[1..];
      ReverseSameMultiset(t);
      assert Reverse(s) == Reverse(t) + [s[0]];
      assert s == [s[0]] + t;
    }
  }

  /** Line `l` shows show `sh` of the store: the show's venue and artist ids
      and start time, with the name of that venue and the name and image of
      that artist as stored. */
  predicate Describes(s: Store, l: ShowLine, sh: Show) {
    && l.venueId == sh.venueId && l.artistId == sh.artistId && l.startTime == sh.startTime
    && (exists v :: v in s.venues && v.id == l.venueId && v.name == l.venueName)
    && (exists a :: a in s.artists && a.id == l.artistId && a.name == l.artistName && a.imageLink == l.artistImageLink)
  }

  /** The show listing (`shows`): one line per show of the store, newest show
      first, each naming the show's venue and artist as stored. */
  function ShowListing(s: Store): (r: seq<ShowLine>)
    requires Valid(s)
    ensures |r| == |s.shows|
    ensures forall j :: 0 <= j < |r| ==> Describes(s, r[j], ShowsNewestFirst(s)[j])
  {
    var shows := ShowsNewestFirst(s);
    seq(|shows|, j requires 0 <= j < |shows| => Line(s, shows[j]))
  }

  function Line(s: Store, sh: Show): (l: ShowLine)
    requires Resolves(s) && sh in s.shows
    ensures Describes(s, l, sh)
  {
    var v := VenueById(s, sh.venueId).value;
    var a := ArtistById(s, sh.artistId).value;
    ShowLine(sh.venueId, v.name, sh.artistId, a.name, a.imageLink, sh.startTime)
  }
}

=== FILE: mutations.dfy ===
/** Create, update and delete of venues, artists and shows. Every handler runs
    the same envelope: inside a `try`, stage the change and commit; on any
    exception, roll back. A mutation therefore maps a store to an outcome and a
    store, and a rolled-back mutation returns the store it was given.

    Staging fails when the row to update or delete is missing (the handler
    dereferences or deletes `None`) or when a required column would be NULL.
    The commit fails when the staged state breaks a declared constraint, or for
    a reason outside the model (a lost connection, a serialization conflict),
    which the caller supplies as `transient`. The handlers collapse all of these
    into one error message; the model keeps the reason. */
module Mutations {
  import opened Optional
  import opened Tables
  import opened Schema
  import Genres

  /** Why a mutation rolled back. */
  datatype Reason =
    | NotFound          // the id names no row
    | NullField         // a required column would be NULL
    | TooLong           // a value exceeds its column's declared length
    | DuplicateName     // a second venue (or artist) with the same name
    | MissingReference  // a show whose artist or venue does not exist
    | Transient         // any other failure at commit

  datatype Outcome = Committed | RolledBack(reason: Reason)

  /** The result of the staging step. */
  datatype Staged = Staged(store: Store) | Aborted(reason: Reason)

  /** The constraint a state breaks, if any: the database's check at commit. */
  function Violation(s: Store): (r: Option<Reason>)
    ensures r.None? <==> Constraints(s)
  {
    if !FieldsFit(s) then Some(TooLong)
    else if !NamesUnique(s) then Some(DuplicateName)
    else if !Resolves(s) then Some(MissingReference)
    else None
  }

  /** The envelope shared by all mutations: commit the staged state if it was
      staged, satisfies every constraint and nothing else goes wrong;
      otherwise roll back to the state before. */
  function Transact(s: Store, staged: Staged, transient: bool): (r: (Outcome, Store))
    ensures r.0.RolledBack? ==> r.1 == s
    ensures r.0.Committed? <==> staged.Staged? && Constraints(staged.store) && !transient
    ensures r.0.Committed? ==> r.1 == staged.store
    ensures staged.Aborted? ==> r.0 == RolledBack(staged.reason)
  {
    match staged
    case Aborted(reason) => (RolledBack(reason), s)
    case Staged(next) =>
      match Violation(next)
      case Some(reason) => (RolledBack(reason), s)
      case None => if transient then (RolledBack(Transient), s) else (Committed, next)
  }

  // ---------------------------------------------------------------------------
  // Form input: each field as the form delivers it, `None` when not supplied.

  datatype VenueForm = VenueForm(
    name: Option<string>,
    city: Option<string>,
    state: Option<string>,
    address: Option<string>,
    phone: Option<string>,
    genres: Option<seq<string>>,
    imageLink: Option<string>,
    facebookLink: Option<string>,
    websiteLink: Option<string>,
    seekingTalent: Option<bool>,
    seekingDescription: Option<string>)

  datatype ArtistForm = ArtistForm(
    name: Option<string>,
    city: Option<string>,
    state: Option<string>,
    phone: Option<string>,
    genres: Option<seq<string>>,
    imageLink: Option<string>,
    facebookLink: Option<string>,
    websiteLink: Option<string>,
    seekingVenue: Option<bool>,
    seekingDescription: Option<string>)

  datatype ShowForm = ShowForm(artistId: Option<int>, venueId: Option<int>, startTime: Option<int>)

  /** Every column declared `nullable=False` has a value. */
  predicate VenueComplete(f: VenueForm) {
    f.name.Some? && f.city.Some? && f.state.Some? && f.address.Some? && f.genres.Some?
  }

  predicate ArtistComplete(f: ArtistForm) {
    f.name.Some? && f.city.Some? && f.state.Some? && f.genres.Some?
  }

  /** The venue row a complete form describes; the list of genres is stored in
      its text form. */
  function VenueRow(id: int, f: VenueForm, seeking: Option<bool>): (v: Venue)
    requires VenueComplete(f)
    ensures v.id == id && v.name == f.name.value && v.city == f.city.value && v.state == f.state.value
    ensures v.seekingTalent == seeking
  {
    Venue(id, f.name.value, f.city.value, f.state.value, f.address.value, f.phone, f.imageLink,
          Genres.Encode(f.genres.value), f.facebookLink, f.websiteLink, seeking, f.seekingDescription)
  }

  function ArtistRow(id: int, f: ArtistForm, seeking: Option<bool>): (a: Artist)
    requires ArtistComplete(f)
    ensures a.id == id && a.name == f.name.value && a.city == f.city.value && a.state == f.state.value
    ensures a.seekingVenue == seeking
  {
    Artist(id, f.name.value, f.city.value, f.state.value, f.phone, Genres.Encode(f.genres.value),
           f.imageLink, f.facebookLink, f.websiteLink, seeking, f.seekingDescription)
  }

  /** On insert, a column with a default that is given no value (or `None`)
      takes the default: `seeking_talent` / `seeking_venue` become false. */
  function InsertDefault(seeking: Option<bool>): (r: Option<bool>)
    ensures r == Some(seeking == Some(true))
  {
    match seeking
    case None => Some(false)
    case Some(b) => Some(b)
  }

  /** The bounded columns of a form fit their declared lengths. */
  predicate VenueFormFits(f: VenueForm) {
    && FitsIn(f.city, ShortText) && FitsIn(f.state, ShortText) && FitsIn(f.address, ShortText)
    && FitsIn(f.phone, ShortText) && FitsIn(f.imageLink, LongText)
    && FitsIn(f.facebookLink, ShortText) && FitsIn(f.websiteLink, ShortText)
    && FitsIn(f.seekingDescription, LongText)
  }

  predicate ArtistFormFits(f: ArtistForm) {
    && FitsIn(f.city, ShortText) && FitsIn(f.state, ShortText)
    && FitsIn(f.phone, ShortText) && FitsIn(f.imageLink, LongText)
    && FitsIn(f.facebookLink, ShortText) && FitsIn(f.websiteLink, ShortText)
    && FitsIn(f.seekingDescription, LongText)
  }

  /** Some venue is named `name`. */
  predicate VenueNamed(s: Store, name: string) {
    exists j :: 0 <= j < |s.venues| && s.venues[j].name == name
  }

  predicate ArtistNamed(s: Store, name: string) {
    exists j :: 0 <= j < |s.artists| && s.artists[j].name == name
  }

  /** No venue other than the one with id `id` is named `name`. */
  predicate VenueNameFree(s: Store, name: string, id: int) {
    FreeBesides(s.venues, VenueId, VenueName, name, id)
  }

  predicate ArtistNameFree(s: Store, name: string, id: int) {
    FreeBesides(s.artists, ArtistId, ArtistName, name, id)
  }

  // ---------------------------------------------------------------------------
  // The staged changes

  /** `session.add(venue)`: the row is inserted under the next serial id. */
  function AddVenue(s: Store, v: Venue): Store {
    s.(venues := s.venues + [v], nextVenueId := s.nextVenueId + 1)
  }

  function AddArtist(s: Store, a: Artist): Store {
    s.(artists := s.artists + [a], nextArtistId := s.nextArtistId + 1)
  }

  function AddShow(s: Store, sh: Show): Store {
    s.(shows := s.shows + [sh], nextShowId := s.nextShowId + 1)
  }

  /** Attribute assignments on a loaded row: the row keeps its id and place. */
  function ReplaceVenue(s: Store, i: nat, v: Venue): Store
    requires i < |s.venues|
  {
    s.(venues := s.venues[i := v])
  }

  function ReplaceArtist(s: Store, i: nat, a: Artist): Store
    requires i < |s.artists|
  {
    s.(artists := s.artists[i := a])
  }

  function NotAtVenue(id: int): Show -> bool {
    (sh: Show) => sh.venueId != id
  }

  function NotByArtist(id: int): Show -> bool {
    (sh: Show) => sh.artistId != id
  }

  /** `session.delete(venue)` with `cascade="all, delete-orphan"` on
      `Venue.shows`: the venue and every show at it go. */
  function DropVenue(s: Store, i: nat): (r: Store)
    requires i < |s.venues|
    ensures |r.venues| == |s.venues| - 1 && forall v :: v in r.venues ==> v in s.venues
    ensures forall sh :: sh in r.shows <==> sh in s.shows && sh.venueId != s.venues[i].id
    ensures r.artists == s.artists
    ensures r.nextVenueId == s.nextVenueId && r.nextArtistId == s.nextArtistId && r.nextShowId == s.nextShowId
  {
    s.(venues := RemoveAt(s.venues, i), shows := Filter(s.shows, NotAtVenue(s.venues[i].id)))
  }

  /** The same cascade from `Artist.shows`. */
  function DropArtist(s: Store, i: nat): (r: Store)
    requires i < |s.artists|
    ensures |r.artists| == |s.artists| - 1 && forall a :: a in r.artists ==> a in s.artists
    ensures forall sh :: sh in r.shows <==> sh in s.shows && sh.artistId != s.artists[i].id
    ensures r.venues == s.venues
    ensures r.nextVenueId == s.nextVenueId && r.nextArtistId == s.nextArtistId && r.nextShowId == s.nextShowId
  {
    s.(artists := RemoveAt(s.artists, i), shows := Filter(s.shows, NotByArtist(s.artists[i].id)))
  }

  // ---------------------------------------------------------------------------
  // The mutations

  /** `create_venue_submission`. */
  function CreateVenue(s: Store, f: VenueForm, transient: bool): (r: (Outcome, Store))
    ensures r.0.RolledBack? ==> r.1 == s
    ensures r.0.Committed? ==>
              && VenueComplete(f)
              && r.1 == AddVenue(s, VenueRow(s.nextVenueId, f, InsertDefault(f.seekingTalent)))
  {
    if !VenueComplete(f) then Transact(s, Aborted(NullField), transient)
    else
      var v := VenueRow(s.nextVenueId, f, InsertDefault(f.seekingTalent));
      Transact(s, Staged(AddVenue(s, v)), transient)
  }

  /** `create_artist_submission`. */
  function CreateArtist(s: Store, f: ArtistForm, transient: bool): (r: (Outcome, Store))
    ensures r.0.RolledBack? ==> r.1 == s
    ensures r.0.Committed? ==>
              && ArtistComplete(f)
              && r.1 == AddArtist(s, ArtistRow(s.nextArtistId, f, InsertDefault(f.seekingVenue)))
  {
    if !ArtistComplete(f) then Transact(s, Aborted(NullField), transient)
    else
      var a := ArtistRow(s.nextArtistId, f, InsertDefault(f.seekingVenue));
      Transact(s, Staged(AddArtist(s, a)), transient)
  }

  /** The default of `Show.start_time`: `datetime.today()` evaluated once, when
      the model module is loaded, and shared by every later insert. */
  datatype App = App(loadedAt: int)

  /** `create_show_submission`. */
  function CreateShow(app: App, s: Store, f: ShowForm, transient: bool): (r: (Outcome, Store))
    ensures r.0.RolledBack? ==> r.1 == s
    ensures r.0.Committed? ==>
              && f.artistId.Some? && f.venueId.Some?
              && r.1 == AddShow(s, Show(s.nextShowId, f.startTime.GetOr(app.loadedAt), f.artistId.value, f.venueId.value))
  {
    if f.artistId.None? || f.venueId.None? then Transact(s, Aborted(NullField), transient)
    else
      var sh := Show(s.nextShowId, f.startTime.GetOr(app.loadedAt), f.artistId.value, f.venueId.value);
      Transact(s, Staged(AddShow(s, sh)), transient)
  }

  /** `edit_venue_submission`: replace every editable column of venue `id`. */
  function UpdateVenue(s: Store, id: int, f: VenueForm, transient: bool): (r: (Outcome, Store))
    ensures r.0.RolledBack? ==> r.1 == s
    ensures !HasVenue(s, id) ==> r.0 == RolledBack(NotFound)
    ensures r.0.Committed? ==> VenueComplete(f)
  {
    match IndexOf(s.venues, VenueId, id)
    case None => Transact(s, Aborted(NotFound), transient)
    case Some(i) =>
      if !VenueComplete(f) then Transact(s, Aborted(NullField), transient)
      else Transact(s, Staged(ReplaceVenue(s, i, VenueRow(id, f, f.seekingTalent))), transient)
  }

  /** `edit_artist_submission`. */
  function UpdateArtist(s: Store, id: int, f: ArtistForm, transient: bool): (r: (Outcome, Store))
    ensures r.0.RolledBack? ==> r.1 == s
    ensures !HasArtist(s, id) ==> r.0 == RolledBack(NotFound)
    ensures r.0.Committed? ==> ArtistComplete(f)
  {
    match IndexOf(s.artists, ArtistId, id)
    case None => Transact(s, Aborted(NotFound), transient)
    case Some(i) =>
      if !ArtistComplete(f) then Transact(s, Aborted(NullField), transient)
      else Transact(s, Staged(ReplaceArtist(s, i, ArtistRow(id, f, f.seekingVenue))), transient)
  }

  /** `delete_venue`: the venue goes, and with it (cascade) its shows. */
  function DeleteVenue(s: Store, id: int, transient: bool): (r: (Outcome, Store))
    ensures r.0.RolledBack? ==> r.1 == s
    ensures !HasVenue(s, id) ==> r.0 == RolledBack(NotFound)
  {
    match IndexOf(s.venues, VenueId, id)
    case None => Transact(s, Aborted(NotFound), transient)
    case Some(i) =>
      Transact(s, Staged(DropVenue(s, i)), transient)
  }

  /** Deleting an artist, which the model relationship cascades to its shows
      in the same way (the handlers expose no route for it). */
  function DeleteArtist(s: Store, id: int, transient: bool): (r: (Outcome, Store))
    ensures r.0.RolledBack? ==> r.1 == s
    ensures !HasArtist(s, id) ==> r.0 == RolledBack(NotFound)
  {
    match IndexOf(s.artists, ArtistId, id)
    case None => Transact(s, Aborted(NotFound), transient)
    case Some(i) =>
      Transact(s, Staged(DropArtist(s, i)), transient)
  }

  // ---------------------------------------------------------------------------
  // What each staged change does to the constraints of a valid store

  /** Inserting a venue under the next id keeps the store well formed and the
      shows resolved; the new row must fit its columns, and its name must be
      new. */
  lemma AddVenueChecks(s: Store, v: Venue)
    requires Valid(s) && v.id == s.nextVenueId
    ensures WellFormed(AddVenue(s, v)) && Resolves(AddVenue(s, v))
    ensures FieldsFit(AddVenue(s, v)) <==> VenueFits(v)
    ensures NamesUnique(AddVenue(s, v)) <==> VenueNameFree(s, v.name, v.id)
  {
    AppendRow(s.venues, VenueId, s.nextVenueId, v, VenueFits, VenueName);
    var t := AddVenue(s, v);
    forall k | 0 <= k < |t.shows|
      ensures HasVenue(t, t.shows[k].venueId)
    {
      var i :| 0 <= i < |s.venues| && s.venues[i].id == s.shows[k].venueId;
      assert t.venues[i] == s.venues[i];
    }
  }

  lemma AddArtistChecks(s: Store, a: Artist)
    requires Valid(s) && a.id == s.nextArtistId
    ensures WellFormed(AddArtist(s, a)) && Resolves(AddArtist(s, a))
    ensures FieldsFit(AddArtist(s, a)) <==> ArtistFits(a)
    ensures NamesUnique(AddArtist(s, a)) <==> ArtistNameFree(s, a.name, a.id)
  {
    AppendRow(s.artists, ArtistId, s.nextArtistId, a, ArtistFits, ArtistName);
    var t := AddArtist(s, a);
    forall k | 0 <= k < |t.shows|
      ensures HasArtist(t, t.shows[k].artistId)
    {
      var i :| 0 <= i < |s.artists| && s.artists[i].id == s.shows[k].artistId;
      assert t.artists[i] == s.artists[i];
    }
  }

  /** Inserting a show under the next id: the other constraints are untouched,
      and the foreign keys hold exactly when its artist and venue exist. */
  lemma AddShowChecks(s: Store, sh: Show)
    requires Valid(s) && sh.id == s.nextShowId
    ensures WellFormed(AddShow(s, sh)) && FieldsFit(AddShow(s, sh)) && NamesUnique(AddShow(s, sh))
    ensures Resolves(AddShow(s, sh)) <==> HasArtist(s, sh.artistId) && HasVenue(s, sh.venueId)
  {
    AppendRow(s.shows, ShowId, s.nextShowId, sh, (x: Show) => true, ShowId);
    var t := AddShow(s, sh);
    assert t.shows[|s.shows|] == sh;
    assert forall k :: 0 <= k < |s.shows| ==> t.shows[k] == s.shows[k];
  }

  /** Overwriting a venue's columns in place, keeping its id: the store stays
      well formed and resolved; the new values must fit, and the new name must
      belong to no other venue. */
  lemma ReplaceVenueChecks(s: Store, i: nat, v: Venue)
    requires Valid(s) && i < |s.venues| && v.id == s.venues[i].id
    ensures WellFormed(ReplaceVenue(s, i, v)) && Resolves(ReplaceVenue(s, i, v))
    ensures FieldsFit(ReplaceVenue(s, i, v)) <==> VenueFits(v)
    ensures NamesUnique(ReplaceVenue(s, i, v)) <==> VenueNameFree(s, v.name, v.id)
  {
    ReplaceRow(s.venues, VenueId, s.nextVenueId, i, v, VenueFits, VenueName);
    var t := ReplaceVenue(s, i, v);
    forall k | 0 <= k < |t.shows|
      ensures HasVenue(t, t.shows[k].venueId)
    {
      var j :| 0 <= j < |s.venues| && s.venues[j].id == s.shows[k].venueId;
      assert t.venues[j].id == s.venues[j].id;
    }
  }

  lemma ReplaceArtistChecks(s: Store, i: nat, a: Artist)
    requires Valid(s) && i < |s.artists| && a.id == s.artists[i].id
    ensures WellFormed(ReplaceArtist(s, i, a)) && Resolves(ReplaceArtist(s, i, a))
    ensures FieldsFit(ReplaceArtist(s, i, a)) <==> ArtistFits(a)
    ensures NamesUnique(ReplaceArtist(s, i, a)) <==> ArtistNameFree(s, a.name, a.id)
  {
    ReplaceRow(s.artists, ArtistId, s.nextArtistId, i, a, ArtistFits, ArtistName);
    var t := ReplaceArtist(s, i, a);
    forall k | 0 <= k < |t.shows|
      ensures HasArtist(t, t.shows[k].artistId)
    {
      var j :| 0 <= j < |s.artists| && s.artists[j].id == s.shows[k].artistId;
      assert t.artists[j].id == s.artists[j].id;
    }
  }

  /** Deleting a venue together with its shows leaves a valid store: with the
      shows that referred to it gone, no show is left dangling. */
  lemma DropVenueChecks(s: Store, i: nat)
    requires Valid(s) && i < |s.venues|
    ensures Valid(DropVenue(s, i))
  {
    var id := s.venues[i].id;
    RemoveRow(s.venues, VenueId, s.nextVenueId, i, VenueFits, VenueName);
    FilterAscending(s.shows, ShowId, NotAtVenue(id));
    FilterKeysBelow(s.shows, ShowId, s.nextShowId, NotAtVenue(id));
    DropVenueResolves(s, i);
  }

  /** After the cascade every remaining show still has its venue and its
      artist. */
  lemma DropVenueResolves(s: Store, i: nat)
    requires Valid(s) && i < |s.venues|
    ensures Resolves(DropVenue(s, i))
  {
    var t := DropVenue(s, i);
    forall k | 0 <= k < |t.shows|
      ensures HasVenue(t, t.shows[k].venueId) && HasArtist(t, t.shows[k].artistId)
    {
      var sh := t.shows[k];
      assert sh in t.shows;
      var m :| 0 <= m < |s.shows| && s.shows[m] == sh;
      assert HasVenue(s, sh.venueId) && HasArtist(s, sh.artistId);
      VenueKept(s, i, sh.venueId);
    }
  }

  /** Removing one venue keeps every venue with another id. */
  lemma VenueKept(s: Store, i: nat, id: int)
    requires i < |s.venues| && HasVenue(s, id) && id != s.venues[i].id
    ensures HasVenue(DropVenue(s, i), id)
  {
    var j :| 0 <= j < |s.venues| && s.venues[j].id == id;
    var rest := DropVenue(s, i).venues;
    if j < i {
      assert rest[j] == s.venues[j];
    } else {
      assert rest[j - 1] == s.venues[j];
    }
  }



  lemma DropArtistChecks(s: Store, i: nat)
    requires Valid(s) && i < |s.artists|
    ensures Valid(DropArtist(s, i))
  {
    var id := s.artists[i].id;
    RemoveRow(s.artists, ArtistId, s.nextArtistId, i, ArtistFits, ArtistName);
    FilterAscending(s.shows, ShowId, NotByArtist(id));
    FilterKeysBelow(s.shows, ShowId, s.nextShowId, NotByArtist(id));
    DropArtistResolves(s, i);
  }

  /** After the cascade every remaining show still has its venue and its
      artist. */
  lemma DropArtistResolves(s: Store, i: nat)
    requires Valid(s) && i < |s.artists|
    ensures Resolves(DropArtist(s, i))
  {
    var t := DropArtist(s, i);
    forall k | 0 <= k < |t.shows|
      ensures HasVenue(t, t.shows[k].venueId) && HasArtist(t, t.shows[k].artistId)
    {
      var sh := t.shows[k];
      assert sh in t.shows;
      var m :| 0 <= m < |s.shows| && s.shows[m] == sh;
      assert HasArtist(s, sh.artistId) && HasVenue(s, sh.venueId);
      ArtistKept(s, i, sh.artistId);
    }
  }

  /** Removing one artist keeps every artist with another id. */
  lemma ArtistKept(s: Store, i: nat, id: int)
    requires i < |s.artists| && HasArtist(s, id) && id != s.artists[i].id
    ensures HasArtist(DropArtist(s, i), id)
  {
    var j :| 0 <= j < |s.artists| && s.artists[j].id == id;
    var rest := DropArtist(s, i).artists;
    if j < i {
      assert rest[j] == s.artists[j];
    } else {
      assert rest[j - 1] == s.artists[j];
    }
  }



  // ---------------------------------------------------------------------------
  // The outcome of each mutation on a valid store, and its effect

  /** In a valid store every id is below the next one, so "no venue but the
      new one has this name" means "no venue has this name". */
  lemma FreshVenueName(s: Store, name: string)
    requires WellFormed(s)
    ensures VenueNameFree(s, name, s.nextVenueId) <==> !VenueNamed(s, name)
  {
    if VenueNamed(s, name) {
      var j :| 0 <= j < |s.venues| && s.venues[j].name == name;
      assert VenueId(s.venues[j]) < s.nextVenueId;
    }
  }

  lemma FreshArtistName(s: Store, name: string)
    requires WellFormed(s)
    ensures ArtistNameFree(s, name, s.nextArtistId) <==> !ArtistNamed(s, name)
  {
    if ArtistNamed(s, name) {
      var j :| 0 <= j < |s.artists| && s.artists[j].name == name;
      assert ArtistId(s.artists[j]) < s.nextArtistId;
    }
  }

  /** Creating a venue, case by case: a required field missing, a value too
      long for its column, a name some venue already has, or a failure at
      commit rolls back with that reason; any other form is committed. */
  lemma CreateVenueOutcome(s: Store, f: VenueForm, transient: bool)
    requires Valid(s)
    ensures CreateVenue(s, f, transient).0 ==
              if !VenueComplete(f) then RolledBack(NullField)
              else if !VenueFormFits(f) then RolledBack(TooLong)
              else if VenueNamed(s, f.name.value) then RolledBack(DuplicateName)
              else if transient then RolledBack(Transient)
              else Committed
  {
    if VenueComplete(f) {
      AddVenueChecks(s, VenueRow(s.nextVenueId, f, InsertDefault(f.seekingTalent)));
      FreshVenueName(s, f.name.value);
    }
  }

  /** A committed venue creation leaves a valid store holding one more venue:
      under the next id, with the form's values, and with `seeking_talent`
      true exactly when the form said true (never NULL). Every other row is as
      it was. */
  lemma CreateVenueEffect(s: Store, f: VenueForm, transient: bool)
    requires Valid(s)
    ensures var r := CreateVenue(s, f, transient);
            r.0.Committed? ==>
              && Valid(r.1)
              && VenueById(r.1, s.nextVenueId) == Some(VenueRow(s.nextVenueId, f, Some(f.seekingTalent == Some(true))))
              && |r.1.venues| == |s.venues| + 1
              && (forall j :: 0 <= j < |s.venues| ==> r.1.venues[j] == s.venues[j])
              && r.1.artists == s.artists && r.1.shows == s.shows
  {
    var r := CreateVenue(s, f, transient);
    if r.0.Committed? {
      var v := VenueRow(s.nextVenueId, f, InsertDefault(f.seekingTalent));
      AddVenueChecks(s, v);
      assert r.1.venues[|s.venues|] == v;
      VenueFoundByKey(r.1, |s.venues|);
    }
  }

  lemma CreateArtistOutcome(s: Store, f: ArtistForm, transient: bool)
    requires Valid(s)
    ensures CreateArtist(s, f, transient).0 ==
              if !ArtistComplete(f) then RolledBack(NullField)
              else if !ArtistFormFits(f) then RolledBack(TooLong)
              else if ArtistNamed(s, f.name.value) then RolledBack(DuplicateName)
              else if transient then RolledBack(Transient)
              else Committed
  {
    if ArtistComplete(f) {
      AddArtistChecks(s, ArtistRow(s.nextArtistId, f, InsertDefault(f.seekingVenue)));
      FreshArtistName(s, f.name.value);
    }
  }

  lemma CreateArtistEffect(s: Store, f: ArtistForm, transient: bool)
    requires Valid(s)
    ensures var r := CreateArtist(s, f, transient);
            r.0.Committed? ==>
              && Valid(r.1)
              && ArtistById(r.1, s.nextArtistId) == Some(ArtistRow(s.nextArtistId, f, Some(f.seekingVenue == Some(true))))
              && |r.1.artists| == |s.artists| + 1
              && (forall j :: 0 <= j < |s.artists| ==> r.1.artists[j] == s.artists[j])
              && r.1.venues == s.venues && r.1.shows == s.shows
  {
    var r := CreateArtist(s, f, transient);
    if r.0.Committed? {
      var a := ArtistRow(s.nextArtistId, f, InsertDefault(f.seekingVenue));
      AddArtistChecks(s, a);
      assert r.1.artists[|s.artists|] == a;
      ArtistFoundByKey(r.1, |s.artists|);
    }
  }

  /** Creating a show: an artist or venue id missing from the form, an
      artist or venue that does not exist, or a failure at commit rolls back;
      any other form is committed. */
  lemma CreateShowOutcome(app: App, s: Store, f: ShowForm, transient: bool)
    requires Valid(s)
    ensures CreateShow(app, s, f, transient).0 ==
              if f.artistId.None? || f.venueId.None? then RolledBack(NullField)
              else if !HasArtist(s, f.artistId.value) || !HasVenue(s, f.venueId.value) then RolledBack(MissingReference)
              else if transient then RolledBack(Transient)
              else Committed
  {
    if f.artistId.Some? && f.venueId.Some? {
      AddShowChecks(s, Show(s.nextShowId, f.startTime.GetOr(app.loadedAt), f.artistId.value, f.venueId.value));
    }
  }

  /** A committed show creation leaves a valid store with one more show, last
      in the table, under the next id, between the form's artist and venue,
      starting at the form's time or, without one, at the time the model was
      loaded. */
  lemma CreateShowEffect(app: App, s: Store, f: ShowForm, transient: bool)
    requires Valid(s)
    ensures var r := CreateShow(app, s, f, transient);
            r.0.Committed? ==>
              && Valid(r.1)
              && |r.1.shows| == |s.shows| + 1
              && r.1.shows[..|s.shows|] == s.shows
              && r.1.shows[|s.shows|].id == s.nextShowId
              && f.artistId == Some(r.1.shows[|s.shows|].artistId) && f.venueId == Some(r.1.shows[|s.shows|].venueId)
              && HasArtist(s, r.1.shows[|s.shows|].artistId) && HasVenue(s, r.1.shows[|s.shows|].venueId)
              && r.1.shows[|s.shows|].startTime == (if f.startTime.Some? then f.startTime.value else app.loadedAt)
              && r.1.venues == s.venues && r.1.artists == s.artists
  {
    var r := CreateShow(app, s, f, transient);
    if r.0.Committed? {
      var sh := Show(s.nextShowId, f.startTime.GetOr(app.loadedAt), f.artistId.value, f.venueId.value);
      AddShowChecks(s, sh);
      assert r.1.shows == s.shows + [sh];
    }
  }

  /** The default start time is fixed when the model is loaded: two shows
      created one after the other without a start time start at the same
      moment, however much time passes between the two requests. */
  lemma DefaultStartIsFixed(app: App, s: Store, f1: ShowForm, t1: bool, f2: ShowForm, t2: bool)
    requires f1.startTime.None? && f2.startTime.None?
    ensures var r1 := CreateShow(app, s, f1, t1);
            var r2 := CreateShow(app, r1.1, f2, t2);
            r1.0.Committed? && r2.0.Committed? ==>
              && |r2.1.shows| == |s.shows| + 2
              && r2.1.shows[|s.shows|].startTime == r2.1.shows[|s.shows| + 1].startTime == app.loadedAt
  {
    var r1 := CreateShow(app, s, f1, t1);
    var r2 := CreateShow(app, r1.1, f2, t2);
    if r1.0.Committed? && r2.0.Committed? {
      assert r2.1.shows[|s.shows|] == r1.1.shows[|s.shows|];
    }
  }

  /** Editing a venue, case by case: an id naming no venue, a required field
      missing, a value too long, a name another venue has, or a failure at
      commit rolls back with that reason; otherwise the edit is committed. */
  lemma UpdateVenueOutcome(s: Store, id: int, f: VenueForm, transient: bool)
    requires Valid(s)
    ensures UpdateVenue(s, id, f, transient).0 ==
              if !HasVenue(s, id) then RolledBack(NotFound)
              else if !VenueComplete(f) then RolledBack(NullField)
              else if !VenueFormFits(f) then RolledBack(TooLong)
              else if !VenueNameFree(s, f.name.value, id) then RolledBack(DuplicateName)
              else if transient then RolledBack(Transient)
              else Committed
  {
    match IndexOf(s.venues, VenueId, id)
    case None =>
    case Some(i) =>
      if VenueComplete(f) {
        ReplaceVenueChecks(s, i, VenueRow(id, f, f.seekingTalent));
      }
  }

  /** A committed edit leaves a valid store in which venue `id` holds the
      form's values (an absent `seeking_talent` written as NULL) under the
      same id and at the same place; every other row is as it was. */
  lemma UpdateVenueEffect(s: Store, id: int, f: VenueForm, transient: bool)
    requires Valid(s)
    ensures var r := UpdateVenue(s, id, f, transient);
            r.0.Committed? ==>
              && Valid(r.1)
              && VenueById(r.1, id) == Some(VenueRow(id, f, f.seekingTalent))
              && |r.1.venues| == |s.venues|
              && (forall j :: 0 <= j < |s.venues| && s.venues[j].id != id ==> r.1.venues[j] == s.venues[j])
              && r.1.artists == s.artists && r.1.shows == s.shows
  {
    var r := UpdateVenue(s, id, f, transient);
    if r.0.Committed? {
      var i := IndexOf(s.venues, VenueId, id).value;
      ReplaceVenueChecks(s, i, VenueRow(id, f, f.seekingTalent));
      VenueFoundByKey(r.1, i);
    }
  }

  lemma UpdateArtistOutcome(s: Store, id: int, f: ArtistForm, transient: bool)
    requires Valid(s)
    ensures UpdateArtist(s, id, f, transient).0 ==
              if !HasArtist(s, id) then RolledBack(NotFound)
              else if !ArtistComplete(f) then RolledBack(NullField)
              else if !ArtistFormFits(f) then RolledBack(TooLong)
              else if !ArtistNameFree(s, f.name.value, id) then RolledBack(DuplicateName)
              else if transient then RolledBack(Transient)
              else Committed
  {
    match IndexOf(s.artists, ArtistId, id)
    case None =>
    case Some(i) =>
      if ArtistComplete(f) {
        ReplaceArtistChecks(s, i, ArtistRow(id, f, f.seekingVenue));
      }
  }

  lemma UpdateArtistEffect(s: Store, id: int, f: ArtistForm, transient: bool)
    requires Valid(s)
    ensures var r := UpdateArtist(s, id, f, transient);
            r.0.Committed? ==>
              && Valid(r.1)
              && ArtistById(r.1, id) == Some(ArtistRow(id, f, f.seekingVenue))
              && |r.1.artists| == |s.artists|
              && (forall j :: 0 <= j < |s.artists| && s.artists[j].id != id ==> r.1.artists[j] == s.artists[j])
              && r.1.venues == s.venues && r.1.shows == s.shows
  {
    var r := UpdateArtist(s, id, f, transient);
    if r.0.Committed? {
      var i := IndexOf(s.artists, ArtistId, id).value;
      ReplaceArtistChecks(s, i, ArtistRow(id, f, f.seekingVenue));
      ArtistFoundByKey(r.1, i);
    }
  }

  /** Deleting a venue of a valid store fails only when the id names no
      venue or the commit fails: the cascade leaves no show dangling. */
  lemma DeleteVenueOutcome(s: Store, id: int, transient: bool)
    requires Valid(s)
    ensures DeleteVenue(s, id, transient).0 ==
              if !HasVenue(s, id) then RolledBack(NotFound)
              else if transient then RolledBack(Transient)
              else Committed
  {
    match IndexOf(s.venues, VenueId, id)
    case None =>
    case Some(i) => DropVenueChecks(s, i);
  }

  /** A committed delete removes venue `id` and exactly the shows at it, and
      leaves every other venue, every artist and every other show in place. */
  lemma DeleteVenueEffect(s: Store, id: int, transient: bool)
    requires Valid(s)
    ensures var r := DeleteVenue(s, id, transient);
            r.0.Committed? ==>
              && Valid(r.1)
              && !HasVenue(r.1, id)
              && (forall v :: v in r.1.venues <==> v in s.venues && v.id != id)
              && r.1.artists == s.artists
              && (forall sh :: sh in r.1.shows <==> sh in s.shows && sh.venueId != id)
  {
    var r := DeleteVenue(s, id, transient);
    if r.0.Committed? {
      var i := IndexOf(s.venues, VenueId, id).value;
      DropVenueChecks(s, i);
      RemoveRow(s.venues, VenueId, s.nextVenueId, i, VenueFits, VenueName);
      forall j | 0 <= j < |r.1.venues|
        ensures r.1.venues[j].id != id
      {
        assert r.1.venues[j] in r.1.venues;
      }
      forall sh | sh in s.shows && sh.venueId != id
        ensures sh in r.1.shows
      {
        var k :| 0 <= k < |s.shows| && s.shows[k] == sh;
        assert NotAtVenue(id)(s.shows[k]);
      }
    }
  }

  lemma DeleteArtistOutcome(s: Store, id: int, transient: bool)
    requires Valid(s)
    ensures DeleteArtist(s, id, transient).0 ==
              if !HasArtist(s, id) then RolledBack(NotFound)
              else if transient then RolledBack(Transient)
              else Committed
  {
    match IndexOf(s.artists, ArtistId, id)
    case None =>
    case Some(i) => DropArtistChecks(s, i);
  }

  lemma DeleteArtistEffect(s: Store, id: int, transient: bool)
    requires Valid(s)
    ensures var r := DeleteArtist(s, id, transient);
            r.0.Committed? ==>
              && Valid(r.1)
              && !HasArtist(r.1, id)
              && (forall a :: a in r.1.artists <==> a in s.artists && a.id != id)
              && r.1.venues == s.venues
              && (forall sh :: sh in r.1.shows <==> sh in s.shows && sh.artistId != id)
  {
    var r := DeleteArtist(s, id, transient);
    if r.0.Committed? {
      var i := IndexOf(s.artists, ArtistId, id).value;
      DropArtistChecks(s, i);
      RemoveRow(s.artists, ArtistId, s.nextArtistId, i, ArtistFits, ArtistName);
      forall j | 0 <= j < |r.1.artists|
        ensures r.1.artists[j].id != id
      {
        assert r.1.artists[j] in r.1.artists;
      }
      forall sh | sh in s.shows && sh.artistId != id
        ensures sh in r.1.shows
      {
        var k :| 0 <= k < |s.shows| && s.shows[k] == sh;
        assert NotByArtist(id)(s.shows[k]);
      }
    }
  }
}

=== FILE: schema.dfy ===
/** The three tables of the booking directory (venues, artists, shows) and the
    constraints their column declarations put on every committed state:
    required columns are non-null, bounded text columns hold at most their
    declared length, names are unique within their table, and every show
    refers to an existing artist and an existing venue. */
module Schema {
  import opened Optional
  import opened Tables

  /** Declared length of `String(120)` columns. */
  const ShortText: nat := 120
  /** Declared length of `String(500)` columns. */
  const LongText: nat := 500

  /** A row of `venues`. Required columns have plain types; nullable ones are
      optional. `genres` holds the text form of the stored list. */
  datatype Venue = Venue(
    id: int,
    name: string,
    city: string,
    state: string,
    address: string,
    phone: Option<string>,
    imageLink: Option<string>,
    genres: string,
    facebookLink: Option<string>,
    websiteLink: Option<string>,
    seekingTalent: Option<bool>,
    seekingDescription: Option<string>)

  /** A row of `artists`. */
  datatype Artist = Artist(
    id: int,
    name: string,
    city: string,
    state: string,
    phone: Option<string>,
    genres: string,
    imageLink: Option<string>,
    facebookLink: Option<string>,
    websiteLink: Option<string>,
    seekingVenue: Option<bool>,
    seekingDescription: Option<string>)

  /** A row of `shows`: one artist playing one venue; times are integers. */
  datatype Show = Show(id: int, startTime: int, artistId: int, venueId: int)

  function VenueId(v: Venue): int { v.id }
  function ArtistId(a: Artist): int { a.id }
  function ShowId(sh: Show): int { sh.id }
  function VenueName(v: Venue): string { v.name }
  function ArtistName(a: Artist): string { a.name }

  /** The database: each table in primary-key order, and the next value of
      each table's serial key. */
  datatype Store = Store(
    venues: seq<Venue>,
    artists: seq<Artist>,
    shows: seq<Show>,
    nextVenueId: int,
    nextArtistId: int,
    nextShowId: int)

  function EmptyStore(): Store {
    Store([], [], [], 1, 1, 1)
  }

  /** How the model holds the tables: rows in strictly ascending key order,
      every key handed out by the table's serial counter. */
  predicate WellFormed(s: Store) {
    && Ascending(s.venues, VenueId) && KeysBelow(s.venues, VenueId, s.nextVenueId)
    && Ascending(s.artists, ArtistId) && KeysBelow(s.artists, ArtistId, s.nextArtistId)
    && Ascending(s.shows, ShowId) && KeysBelow(s.shows, ShowId, s.nextShowId)
  }

  /** A nullable bounded text column holds NULL or at most `n` characters. */
  predicate FitsIn(text: Option<string>, n: nat) {
    text.None? || |text.value| <= n
  }

  predicate VenueFits(v: Venue) {
    && |v.city| <= ShortText && |v.state| <= ShortText && |v.address| <= ShortText
    && FitsIn(v.phone, ShortText) && FitsIn(v.imageLink, LongText)
    && FitsIn(v.facebookLink, ShortText) && FitsIn(v.websiteLink, ShortText)
    && FitsIn(v.seekingDescription, LongText)
  }

  predicate ArtistFits(a: Artist) {
    && |a.city| <= ShortText && |a.state| <= ShortText
    && FitsIn(a.phone, ShortText) && FitsIn(a.imageLink, LongText)
    && FitsIn(a.facebookLink, ShortText) && FitsIn(a.websiteLink, ShortText)
    && FitsIn(a.seekingDescription, LongText)
  }

  /** Every bounded column of every row is within its declared length. */
  predicate FieldsFit(s: Store) {
    All(s.venues, VenueFits) && All(s.artists, ArtistFits)
  }

  /** `unique=True` on `Venue.name` and on `Artist.name`. */
  predicate NamesUnique(s: Store) {
    Distinct(s.venues, VenueName) && Distinct(s.artists, ArtistName)
  }

  predicate HasVenue(s: Store, id: int) {
    exists i :: 0 <= i < |s.venues| && s.venues[i].id == id
  }

  predicate HasArtist(s: Store, id: int) {
    exists i :: 0 <= i < |s.artists| && s.artists[i].id == id
  }

  /** The foreign keys of `shows`: each show's artist and venue exist. */
  predicate Resolves(s: Store) {
    forall i :: 0 <= i < |s.shows| ==> HasArtist(s, s.shows[i].artistId) && HasVenue(s, s.shows[i].venueId)
  }

  /** What the database checks when a transaction commits. */
  predicate Constraints(s: Store) {
    FieldsFit(s) && NamesUnique(s) && Resolves(s)
  }

  /** A state the application can observe. */
  predicate Valid(s: Store) {
    WellFormed(s) && Constraints(s)
  }

  /** The freshly created database is a valid state. */
  lemma EmptyStoreValid()
    ensures Valid(EmptyStore())
  {
  }

  /** `Venue.query.get(id)`. */
  function VenueById(s: Store, id: int): (r: Option<Venue>)
    ensures r.Some? <==> HasVenue(s, id)
    ensures r.Some? ==> r.value in s.venues && r.value.id == id
  {
    Get(s.venues, VenueId, id)
  }

  /** `Artist.query.get(id)`. */
  function ArtistById(s: Store, id: int): (r: Option<Artist>)
    ensures r.Some? <==> HasArtist(s, id)
    ensures r.Some? ==> r.value in s.artists && r.value.id == id
  {
    Get(s.artists, ArtistId, id)
  }

  /** Keys are unique in a well-formed store, so a row is the one its key
      finds. */
  lemma VenueFoundByKey(s: Store, i: int)
    requires WellFormed(s)
    requires 0 <= i < |s.venues|
    ensures VenueById(s, s.venues[i].id) == Some(s.venues[i])
  {
    var r := VenueById(s, s.venues[i].id);
    var j :| 0 <= j < |s.venues| && s.venues[j] == r.value;
    assert !(j < i) && !(i < j);
  }

  lemma ArtistFoundByKey(s: Store, i: int)
    requires WellFormed(s)
    requires 0 <= i < |s.artists|
    ensures ArtistById(s, s.artists[i].id) == Some(s.artists[i])
  {
    var r := ArtistById(s, s.artists[i].id);
    var j :| 0 <= j < |s.artists| && s.artists[j] == r.value;
    assert !(j < i) && !(i < j);
  }
}

=== FILE: search.dfy ===
/** The search handlers (`search_venues` / `search_artists`): a venue or an
    artist matches when its name, city, state or `city + ", " + state` is
    `ILIKE '%' + search_term + '%'`. The response carries the number of matches
    and, for each, its id, name and number of upcoming shows. The database
    returns matches in no promised order; the model lists them in table order,
    and the properties below speak only of which records are listed. */
module Search {
  import opened Text
  import opened Like
  import opened Tables
  import opened Schema
  import opened ShowLists

  /** The columns the search looks at. */
  datatype Searchable = Searchable(id: int, name: string, city: string, state: string)

  function OfVenueRow(v: Venue): Searchable {
    Searchable(v.id, v.name, v.city, v.state)
  }

  function OfArtistRow(a: Artist): Searchable {
    Searchable(a.id, a.name, a.city, a.state)
  }

  /** The searched table: venues or artists. */
  function Rows(s: Store, owner: Owner): (r: seq<Searchable>)
    ensures owner.OfVenue? ==> |r| == |s.venues| && forall j :: 0 <= j < |r| ==> r[j] == OfVenueRow(s.venues[j])
    ensures owner.OfArtist? ==> |r| == |s.artists| && forall j :: 0 <= j < |r| ==> r[j] == OfArtistRow(s.artists[j])
  {
    match owner
    case OfVenue => seq(|s.venues|, j requires 0 <= j < |s.venues| => OfVenueRow(s.venues[j]))
    case OfArtist => seq(|s.artists|, j requires 0 <= j < |s.artists| => OfArtistRow(s.artists[j]))
  }

  /** The filter of the search query. For a search term without pattern
      characters, a record matches exactly when the lower-cased term is a
      substring of its lower-cased name, city, state, or
      `city + ", " + state`. */
  function Matches(term: string, x: Searchable): (r: bool)
    ensures Literal(term) ==>
              (r <==> || IsSubstring(Lower(term), Lower(x.name))
                      || IsSubstring(Lower(term), Lower(x.city))
                      || IsSubstring(Lower(term), Lower(x.state))
                      || IsSubstring(Lower(term), Lower(x.city) + ", " + Lower(x.state)))
  {
    var p := Contains(term);
    var r := Ilike(x.name, p) || Ilike(x.city, p) || Ilike(x.state, p) || Ilike(x.city + ", " + x.state, p);
    if Literal(term) then
      IlikeContainsIsSubstring(term, x.name);
      IlikeContainsIsSubstring(term, x.city);
      IlikeContainsIsSubstring(term, x.state);
      IlikeContainsIsSubstring(term, x.city + ", " + x.state);
      LowerAppend(x.city + ", ", x.state);
      LowerAppend(x.city, ", ");
      assert Lower(", ") == ", ";
      r
    else
      r
  }

  function MatchesTerm(term: string): Searchable -> bool {
    x => Matches(term, x)
  }

  /** One search result. */
  datatype Hit = Hit(id: int, name: string, numUpcomingShows: nat)

  /** The response: `count` and `data`. */
  datatype Response = Response(count: nat, data: seq<Hit>)

  function HitOf(s: Store, owner: Owner, now: int, x: Searchable): Hit {
    Hit(x.id, x.name, UpcomingCount(s, owner, x.id, now))
  }

  /** `h` is the result line of some matching record of the table. */
  predicate IsHitFor(s: Store, owner: Owner, term: string, now: int, h: Hit) {
    exists j :: 0 <= j < |Rows(s, owner)| && Matches(term, Rows(s, owner)[j]) && h == HitOf(s, owner, now, Rows(s, owner)[j])
  }

  /** `search_venues` (owner `OfVenue`) or `search_artists` (owner `OfArtist`)
      for `term` at time `now`: the count is the number of results, every
      result is a matching record with its upcoming-show count, and every
      matching record is among the results. */
  function Find(s: Store, owner: Owner, term: string, now: int): (r: Response)
    ensures r.count == |r.data|
    ensures forall i :: 0 <= i < |r.data| ==> IsHitFor(s, owner, term, now, r.data[i])
    ensures forall j :: 0 <= j < |Rows(s, owner)| && Matches(term, Rows(s, owner)[j]) ==>
              HitOf(s, owner, now, Rows(s, owner)[j]) in r.data
  {
    var found := Filter(Rows(s, owner), MatchesTerm(term));
    var data := Hits(s, owner, now, found);
    FoundHits(s, owner, term, now);
    Response(|found|, data)
  }

  function Hits(s: Store, owner: Owner, now: int, found: seq<Searchable>): (data: seq<Hit>)
    ensures |data| == |found|
    ensures forall i :: 0 <= i < |found| ==> data[i] == HitOf(s, owner, now, found[i])
  {
    seq(|found|, i requires 0 <= i < |found| => HitOf(s, owner, now, found[i]))
  }

  lemma FoundHits(s: Store, owner: Owner, term: string, now: int)
    ensures forall i :: 0 <= i < |Filter(Rows(s, owner), MatchesTerm(term))| ==>
              IsHitFor(s, owner, term, now, Hits(s, owner, now, Filter(Rows(s, owner), MatchesTerm(term)))[i])
    ensures forall j :: 0 <= j < |Rows(s, owner)| && Matches(term, Rows(s, owner)[j]) ==>
              HitOf(s, owner, now, Rows(s, owner)[j]) in Hits(s, owner, now, Filter(Rows(s, owner), MatchesTerm(term)))
  {
    var rows := Rows(s, owner);
    var found := Filter(rows, MatchesTerm(term));
    var data := Hits(s, owner, now, found);
    forall i | 0 <= i < |found|
      ensures IsHitFor(s, owner, term, now, data[i])
    {
      assert found[i] in rows && MatchesTerm(term)(found[i]);
      var j :| 0 <= j < |rows| && rows[j] == found[i];
    }
    forall j | 0 <= j < |rows| && Matches(term, rows[j])
      ensures HitOf(s, owner, now, rows[j]) in data
    {
      assert MatchesTerm(term)(rows[j]);
      assert rows[j] in found;
      var i :| 0 <= i < |found| && found[i] == rows[j];
      assert data[i] == HitOf(s, owner, now, rows[j]);
    }
  }

  /** The empty search term matches every record, so the count is the size of
      the table. */
  lemma EmptyTermFindsAll(s: Store, owner: Owner, now: int)
    ensures Find(s, owner, "", now).count == |Rows(s, owner)|
    ensures forall j :: 0 <= j < |Rows(s, owner)| ==> HitOf(s, owner, now, Rows(s, owner)[j]) in Find(s, owner, "", now).data
  {
    var rows := Rows(s, owner);
    forall x
      ensures MatchesTerm("")(x)
    {
      EmptyTermMatchesAll(x.name);
    }
    FilterAll(rows, MatchesTerm(""));
  }

  /** A filter that every row passes keeps the whole table. */
  lemma {:induction false} FilterAll<T>(rows: seq<T>, keep: T -> bool)
    requires forall i :: 0 <= i < |rows| ==> keep(rows[i])
    ensures Filter(rows, keep) == rows
    decreases |rows|
  {
    if |rows| > 0 {
      FilterAll(rows[1..], keep);
      assert [rows[0]] + rows[1..] == rows;
    }
  }

  /** The ids of the records that match. */
  function MatchingIds(s: Store, owner: Owner, term: string): set<int> {
    set j | 0 <= j < |Rows(s, owner)| && Matches(term, Rows(s, owner)[j]) :: Rows(s, owner)[j].id
  }

  /** In a well-formed store ids are unique, so the count is the number of
      distinct matching records. */
  lemma CountIsNumberOfMatches(s: Store, owner: Owner, term: string, now: int)
    requires WellFormed(s)
    ensures Find(s, owner, term, now).count == |MatchingIds(s, owner, term)|
  {
    var rows := Rows(s, owner);
    RowsAscending(s, owner);
    var found := Filter(rows, MatchesTerm(term));
    FilterAscending(rows, SearchableId, MatchesTerm(term));
    assert MatchingIds(s, owner, term) == IdSet(found) by {
      forall id | id in IdSet(found)
        ensures id in MatchingIds(s, owner, term)
      {
        var i :| 0 <= i < |found| && found[i].id == id;
        assert found[i] in rows;
      }
    }
    AscendingIdSet(found);
  }

  function SearchableId(x: Searchable): int { x.id }

  function IdSet(xs: seq<Searchable>): set<int> {
    set i | 0 <= i < |xs| :: xs[i].id
  }

  lemma RowsAscending(s: Store, owner: Owner)
    requires WellFormed(s)
    ensures Ascending(Rows(s, owner), SearchableId)
  {
    var rows := Rows(s, owner);
    forall i, j | 0 <= i < j < |rows|
      ensures SearchableId(rows[i]) < SearchableId(rows[j])
    {
      match owner
      case OfVenue => assert VenueId(s.venues[i]) < VenueId(s.venues[j]);
      case OfArtist => assert ArtistId(s.artists[i]) < ArtistId(s.artists[j]);
    }
  }

  /** Records in ascending id order have as many distinct ids as records. */
  lemma {:induction false} AscendingIdSet(xs: seq<Searchable>)
    requires Ascending(xs, SearchableId)
    ensures |IdSet(xs)| == |xs|
    decreases |xs|
  {
    if |xs| > 0 {
      var rest := xs[1..];
      assert Ascending(rest, SearchableId) by {
        forall i, j | 0 <= i < j < |rest|
          ensures SearchableId(rest[i]) < SearchableId(rest[j])
        {
          assert rest[i] == xs[i + 1] && rest[j] == xs[j + 1];
        }
      }
      AscendingIdSet(rest);
      IdSetCons(xs);
      HeadIdFresh(xs);
    }
  }

  lemma IdSetCons(xs: seq<Searchable>)
    requires |xs| > 0
    ensures IdSet(xs) == {xs[0].id} + IdSet(xs[1..])
  {
    var rest := xs[1..];
    forall id | id in IdSet(xs)
      ensures id in {xs[0].id} + IdSet(rest)
    {
      var i :| 0 <= i < |xs| && xs[i].id == id;
      if i > 0 {
        assert rest[i - 1] == xs[i];
      }
    }
    forall id | id in IdSet(rest)
      ensures id in IdSet(xs)
    {
      var i :| 0 <= i < |rest| && rest[i].id == id;
      assert xs[i + 1] == rest[i];
    }
  }

  lemma HeadIdFresh(xs: seq<Searchable>)
    requires |xs| > 0 && Ascending(xs, SearchableId)
    ensures xs[0].id !in IdSet(xs[1..])
  {
    var rest := xs[1..];
    forall i | 0 <= i < |rest|
      ensures rest[i].id != xs[0].id
    {
      assert SearchableId(xs[0]) < SearchableId(xs[i + 1]);
    }
  }
}

=== FILE: showlists.dfy ===
/** The past and upcoming shows of one venue or one artist
    (`get_past_shows` / `get_upcoming_shows`). A show is past when it starts
    strictly before `now` and upcoming otherwise; the wall clock the handlers
    read is the parameter `now`. Each entry names the other party of the show:
    the artist for a venue, the venue for an artist. */
module ShowLists {
  import opened Optional
  import opened Tables
  import opened Schema

  /** Whose shows are listed: the `model` argument, `'venue'` or `'artist'`. */
  datatype Owner = OfVenue | OfArtist

  /** The id of the show's owner of the given kind. */
  function OwnerId(owner: Owner, sh: Show): int {
    match owner
    case OfVenue => sh.venueId
    case OfArtist => sh.artistId
  }

  /** The id of the show's other party. */
  function OtherId(owner: Owner, sh: Show): int {
    match owner
    case OfVenue => sh.artistId
    case OfArtist => sh.venueId
  }

  function OwnedBy(owner: Owner, id: int): Show -> bool {
    sh => OwnerId(owner, sh) == id
  }

  function PastFor(owner: Owner, id: int, now: int): Show -> bool {
    sh => OwnerId(owner, sh) == id && sh.startTime < now
  }

  function UpcomingFor(owner: Owner, id: int, now: int): Show -> bool {
    sh => OwnerId(owner, sh) == id && sh.startTime >= now
  }

  /** All shows of the owner, in table order. */
  function Owned(s: Store, owner: Owner, id: int): seq<Show> {
    Filter(s.shows, OwnedBy(owner, id))
  }

  /** The owner's shows that started before `now`: every listed show is one,
      and every one is listed. */
  function PastOf(s: Store, owner: Owner, id: int, now: int): (r: seq<Show>)
    ensures forall i :: 0 <= i < |r| ==> r[i] in s.shows && OwnerId(owner, r[i]) == id && r[i].startTime < now
    ensures forall k :: 0 <= k < |s.shows| && OwnerId(owner, s.shows[k]) == id && s.shows[k].startTime < now ==> s.shows[k] in r
  {
    Filter(s.shows, PastFor(owner, id, now))
  }

  /** The owner's shows that start at `now` or later: every listed show is
      one, and every one is listed. */
  function UpcomingOf(s: Store, owner: Owner, id: int, now: int): (r: seq<Show>)
    ensures forall i :: 0 <= i < |r| ==> r[i] in s.shows && OwnerId(owner, r[i]) == id && r[i].startTime >= now
    ensures forall k :: 0 <= k < |s.shows| && OwnerId(owner, s.shows[k]) == id && s.shows[k].startTime >= now ==> s.shows[k] in r
  {
    Filter(s.shows, UpcomingFor(owner, id, now))
  }

  /** For one `now`, past and upcoming split the owner's shows: they are
      disjoint, together they are every show of the owner (each once), and the
      two counts add up to the number of the owner's shows. */
  lemma {:induction false} Partition(s: Store, owner: Owner, id: int, now: int)
    ensures multiset(PastOf(s, owner, id, now)) + multiset(UpcomingOf(s, owner, id, now)) == multiset(Owned(s, owner, id))
    ensures |PastOf(s, owner, id, now)| + |UpcomingOf(s, owner, id, now)| == |Owned(s, owner, id)|
    ensures forall sh :: sh in PastOf(s, owner, id, now) ==> sh !in UpcomingOf(s, owner, id, now)
    ensures forall sh :: sh in Owned(s, owner, id) <==> sh in PastOf(s, owner, id, now) || sh in UpcomingOf(s, owner, id, now)
  {
    FilterPartition(s.shows, OwnedBy(owner, id), PastFor(owner, id, now), UpcomingFor(owner, id, now));
    var past, upcoming, owned := PastOf(s, owner, id, now), UpcomingOf(s, owner, id, now), Owned(s, owner, id);
    forall sh | sh in past
      ensures sh !in upcoming
    {
      var i :| 0 <= i < |past| && past[i] == sh;
      assert sh.startTime < now;
    }
    forall sh
      ensures sh in owned <==> sh in past || sh in upcoming
    {
      calc {
        sh in owned;
        multiset(owned)[sh] > 0;
        multiset(past)[sh] + multiset(upcoming)[sh] > 0;
        sh in past || sh in upcoming;
      }
    }
  }

  /** One line of a show list, as the owner's page shows it. */
  datatype ShowEntry = ShowEntry(otherId: int, otherName: string, otherImageLink: Option<string>, startTime: int)

  /** The entry for a show of the store, naming its other party. */
  function Entry(s: Store, owner: Owner, sh: Show): (e: ShowEntry)
    requires Resolves(s) && sh in s.shows
    ensures e.otherId == OtherId(owner, sh) && e.startTime == sh.startTime
    ensures owner.OfVenue? ==> exists j :: 0 <= j < |s.artists| && s.artists[j].id == sh.artistId
                                  && s.artists[j].name == e.otherName && s.artists[j].imageLink == e.otherImageLink
    ensures owner.OfArtist? ==> exists j :: 0 <= j < |s.venues| && s.venues[j].id == sh.venueId
                                  && s.venues[j].name == e.otherName && s.venues[j].imageLink == e.otherImageLink
  {
    match owner
    case OfVenue =>
      var a := ArtistById(s, sh.artistId).value;
      ShowEntry(sh.artistId, a.name, a.imageLink, sh.startTime)
    case OfArtist =>
      var v := VenueById(s, sh.venueId).value;
      ShowEntry(sh.venueId, v.name, v.imageLink, sh.startTime)
  }

  /** The entries of a list of the store's shows, in the same order. */
  function Entries(s: Store, owner: Owner, shows: seq<Show>): (r: seq<ShowEntry>)
    requires Resolves(s)
    requires forall i :: 0 <= i < |shows| ==> shows[i] in s.shows
    ensures |r| == |shows|
    ensures forall i :: 0 <= i < |r| ==> r[i] == Entry(s, owner, shows[i])
    ensures forall i :: 0 <= i < |r| ==> r[i].otherId == OtherId(owner, shows[i]) && r[i].startTime == shows[i].startTime
    ensures forall k :: 0 <= k < |shows| ==> Entry(s, owner, shows[k]) in r
  {
    seq(|shows|, i requires 0 <= i < |shows| => Entry(s, owner, shows[i]))
  }

  /** `get_past_shows(model, id)` at time `now`: the entry of each past show
      of the owner, and nothing else. */
  function PastShows(s: Store, owner: Owner, id: int, now: int): (r: seq<ShowEntry>)
    requires Resolves(s)
    ensures |r| == |PastOf(s, owner, id, now)|
    ensures forall i :: 0 <= i < |r| ==> r[i].startTime < now
    ensures forall i :: 0 <= i < |r| ==> r[i] == Entry(s, owner, PastOf(s, owner, id, now)[i])
    ensures forall k :: 0 <= k < |s.shows| && OwnerId(owner, s.shows[k]) == id && s.shows[k].startTime < now ==>
              Entry(s, owner, s.shows[k]) in r
  {
    Entries(s, owner, PastOf(s, owner, id, now))
  }

  /** `get_upcoming_shows(model, id)` at time `now`: the entry of each
      upcoming show of the owner, and nothing else. */
  function UpcomingShows(s: Store, owner: Owner, id: int, now: int): (r: seq<ShowEntry>)
    requires Resolves(s)
    ensures |r| == |UpcomingOf(s, owner, id, now)|
    ensures forall i :: 0 <= i < |r| ==> r[i].startTime >= now
    ensures forall i :: 0 <= i < |r| ==> r[i] == Entry(s, owner, UpcomingOf(s, owner, id, now)[i])
    ensures forall k :: 0 <= k < |s.shows| && OwnerId(owner, s.shows[k]) == id && s.shows[k].startTime >= now ==>
              Entry(s, owner, s.shows[k]) in r
  {
    Entries(s, owner, UpcomingOf(s, owner, id, now))
  }

  /** `len(get_upcoming_shows(model, id))`: the count the listings and search
      results carry. It needs no resolution of the other party. */
  function UpcomingCount(s: Store, owner: Owner, id: int, now: int): nat {
    |UpcomingOf(s, owner, id, now)|
  }
}

=== FILE: tables.dfy ===
/** Rows of a table held as a sequence in primary-key order, with the generic
    operations the queries and mutations need: ordering by key, lookup by key,
    `ORDER BY key DESC LIMIT n`, filtering and removal. The key of a row is
    given by a function so that the three tables share one definition. */
module Tables {
  import opened Optional

  /** Keys strictly increase along the table. */
  predicate Ascending<T>(rows: seq<T>, key: T -> int) {
    forall i, j :: 0 <= i < j < |rows| ==> key(rows[i]) < key(rows[j])
  }

  /** Keys strictly decrease along the sequence. */
  predicate Descending<T>(rows: seq<T>, key: T -> int) {
    forall i, j :: 0 <= i < j < |rows| ==> key(rows[i]) > key(rows[j])
  }

  /** Every key lies in `[1, next)`: the keys a serial column has handed out,
      `next` being the one it hands out next. */
  predicate KeysBelow<T>(rows: seq<T>, key: T -> int, next: int) {
    1 <= next && forall i :: 0 <= i < |rows| ==> 1 <= key(rows[i]) < next
  }

  /** Every row satisfies `p`. */
  predicate All<T>(rows: seq<T>, p: T -> bool) {
    forall i :: 0 <= i < |rows| ==> p(rows[i])
  }

  /** No two rows agree on `field`: a `unique=True` column. */
  predicate Distinct<T, U(==)>(rows: seq<T>, field: T -> U) {
    forall i, j :: 0 <= i < j < |rows| ==> field(rows[i]) != field(rows[j])
  }

  /** No row other than the one with key `id` holds `value` in `field`. */
  predicate FreeBesides<T, U(==)>(rows: seq<T>, key: T -> int, field: T -> U, value: U, id: int) {
    forall j :: 0 <= j < |rows| && key(rows[j]) != id ==> field(rows[j]) != value
  }

  function Min(a: int, b: int): int {
    if a <= b then a else b
  }

  function Reverse<T>(s: seq<T>): (r: seq<T>)
    ensures |r| == |s|
    ensures forall i :: 0 <= i < |s| ==> r[i] == s[|s| - 1 - i]
  {
    seq(|s|, i requires 0 <= i < |s| => s[|s| - 1 - i])
  }

  /** `ORDER BY key DESC LIMIT n` over a table in ascending key order. */
  function Newest<T>(rows: seq<T>, n: nat): seq<T>
  {
    Reverse(rows)[..Min(n, |rows|)]
  }

  /** The newest `n` rows are at most `n` rows of the table, in strictly
      descending key order, and every row left out has a smaller key than every
      row taken. */
  lemma NewestRows<T>(rows: seq<T>, key: T -> int, n: nat)
    requires Ascending(rows, key)
    ensures |Newest(rows, n)| == Min(n, |rows|)
    ensures Descending(Newest(rows, n), key)
    ensures forall x :: x in Newest(rows, n) ==> x in rows
    ensures forall i, j :: 0 <= i < |rows| - |Newest(rows, n)| && 0 <= j < |Newest(rows, n)| ==>
              key(rows[i]) < key(Newest(rows, n)[j])
  {
    var r := Newest(rows, n);
    forall x | x in r
      ensures x in rows
    {
      var i :| 0 <= i < |r| && r[i] == x;
      assert x == rows[|rows| - 1 - i];
    }
  }

  /** The position of the first row with key `id`, if any. */
  function IndexOf<T>(rows: seq<T>, key: T -> int, id: int): (r: Option<nat>)
    ensures r.Some? ==> r.value < |rows| && key(rows[r.value]) == id
    ensures r.Some? ==> forall i :: 0 <= i < r.value ==> key(rows[i]) != id
    ensures r.None? <==> forall i :: 0 <= i < |rows| ==> key(rows[i]) != id
  {
    if |rows| == 0 then None
    else if key(rows[0]) == id then Some(0)
    else
      match IndexOf(rows[1..], key, id)
      case None => None
      case Some(i) => Some(i + 1)
  }

  /** `query.get(id)`: the row with key `id`, if any. */
  function Get<T>(rows: seq<T>, key: T -> int, id: int): (r: Option<T>)
    ensures r.Some? ==> r.value in rows && key(r.value) == id
    ensures r.None? <==> forall i :: 0 <= i < |rows| ==> key(rows[i]) != id
  {
    match IndexOf(rows, key, id)
    case None => None
    case Some(i) => Some(rows[i])
  }

  /** The rows satisfying `keep`, in table order. */
  function Filter<T>(rows: seq<T>, keep: T -> bool): (r: seq<T>)
    ensures |r| <= |rows|
    ensures forall i :: 0 <= i < |r| ==> r[i] in rows && keep(r[i])
    ensures forall i :: 0 <= i < |rows| && keep(rows[i]) ==> rows[i] in r
  {
    if |rows| == 0 then []
    else (if keep(rows[0]) then [rows[0]] else []) + Filter(rows[1..], keep)
  }

  /** Nothing passes a filter that no row satisfies. */
  lemma {:induction false} FilterNone<T>(rows: seq<T>, keep: T -> bool)
    requires forall i :: 0 <= i < |rows| ==> !keep(rows[i])
    ensures Filter(rows, keep) == []
    decreases |rows|
  {
    if |rows| > 0 {
      FilterNone(rows[1..], keep);
    }
  }

  /** Filtering distributes over appending one row. */
  lemma {:induction false} FilterAppend<T>(rows: seq<T>, x: T, keep: T -> bool)
    ensures Filter(rows + [x], keep) == Filter(rows, keep) + (if keep(x) then [x] else [])
    decreases |rows|
  {
    if |rows| == 0 {
      assert rows + [x] == [x];
      assert [x][1..] == [];
    } else {
      assert (rows + [x])[1..] == rows[1..] + [x];
      FilterAppend(rows[1..], x, keep);
    }
  }

  /** Two filters whose conditions split a third one into disjoint halves
      together hold exactly the rows of the third, each once. */
  lemma {:induction false} FilterPartition<T>(rows: seq<T>, all: T -> bool, left: T -> bool, right: T -> bool)
    requires forall x :: all(x) <==> left(x) || right(x)
    requires forall x :: !(left(x) && right(x))
    ensures multiset(Filter(rows, left)) + multiset(Filter(rows, right)) == multiset(Filter(rows, all))
    ensures |Filter(rows, left)| + |Filter(rows, right)| == |Filter(rows, all)|
    decreases |rows|
  {
    if |rows| > 0 {
      FilterPartition(rows[1..], all, left, right);
    }
  }

  /** A filtered table keeps the order of the table. */
  lemma {:induction false} FilterAscending<T>(rows: seq<T>, key: T -> int, keep: T -> bool)
    requires Ascending(rows, key)
    ensures Ascending(Filter(rows, keep), key)
    decreases |rows|
  {
    if |rows| > 0 {
      FilterAscending(rows[1..], key, keep);
      var rest := Filter(rows[1..], keep);
      forall j | 0 <= j < |rest|
        ensures key(rows[0]) < key(rest[j])
      {
        assert rest[j] in rows[1..];
      }
    }
  }

  /** A filtered sequence keeps a descending order too. */
  lemma {:induction false} FilterDescending<T>(rows: seq<T>, key: T -> int, keep: T -> bool)
    requires Descending(rows, key)
    ensures Descending(Filter(rows, keep), key)
    decreases |rows|
  {
    if |rows| > 0 {
      FilterDescending(rows[1..], key, keep);
      var rest := Filter(rows[1..], keep);
      forall j | 0 <= j < |rest|
        ensures key(rows[0]) > key(rest[j])
      {
        assert rest[j] in rows[1..];
      }
    }
  }

  /** The table without its row at position `i`. */
  function RemoveAt<T>(rows: seq<T>, i: nat): (r: seq<T>)
    requires i < |rows|
    ensures |r| == |rows| - 1
    ensures forall j :: 0 <= j < i ==> r[j] == rows[j]
    ensures forall j :: i <= j < |r| ==> r[j] == rows[j + 1]
  {
    rows[..i] + rows[i + 1..]
  }

  /** Inserting a row under the key the serial column hands out next: the
      table stays ordered with its keys handed out, a condition holds of every
      row exactly when it held before and holds of the new row, and a column
      stays unique exactly when no old row already holds the new row's value. */
  lemma AppendRow<T, U>(rows: seq<T>, key: T -> int, next: int, x: T, p: T -> bool, field: T -> U)
    requires Ascending(rows, key) && KeysBelow(rows, key, next) && key(x) == next
    ensures Ascending(rows + [x], key) && KeysBelow(rows + [x], key, next + 1)
    ensures All(rows + [x], p) <==> All(rows, p) && p(x)
    ensures Distinct(rows + [x], field) <==> Distinct(rows, field) && FreeBesides(rows, key, field, field(x), next)
  {
    var r := rows + [x];
    assert r[|rows|] == x;
    assert forall i :: 0 <= i < |rows| ==> r[i] == rows[i];
    if Distinct(r, field) {
      forall j | 0 <= j < |rows| && key(rows[j]) != next
        ensures field(rows[j]) != field(x)
      {
        assert field(r[j]) != field(r[|rows|]);
      }
    }
  }

  /** Overwriting the row at position `i` with one under the same key: order
      and keys are kept, a condition that held of every row holds after
      exactly when it holds of the new row, and a unique column stays unique
      exactly when no other row holds the new row's value. */
  lemma ReplaceRow<T, U>(rows: seq<T>, key: T -> int, next: int, i: nat, x: T, p: T -> bool, field: T -> U)
    requires Ascending(rows, key) && KeysBelow(rows, key, next)
    requires i < |rows| && key(x) == key(rows[i])
    requires All(rows, p) && Distinct(rows, field)
    ensures Ascending(rows[i := x], key) && KeysBelow(rows[i := x], key, next)
    ensures All(rows[i := x], p) <==> p(x)
    ensures Distinct(rows[i := x], field) <==> FreeBesides(rows, key, field, field(x), key(x))
  {
    var r := rows[i := x];
    assert r[i] == x;
    if Distinct(r, field) {
      forall j | 0 <= j < |rows| && key(rows[j]) != key(x)
        ensures field(rows[j]) != field(x)
      {
        assert j != i && r[j] == rows[j];
        if j < i {
          assert field(r[j]) != field(r[i]);
        } else {
          assert field(r[i]) != field(r[j]);
        }
      }
    }
    if FreeBesides(rows, key, field, field(x), key(x)) {
      forall a, b | 0 <= a < b < |r|
        ensures field(r[a]) != field(r[b])
      {
        if a == i {
          assert key(rows[b]) != key(rows[i]);
        } else if b == i {
          assert key(rows[a]) != key(rows[i]);
        }
      }
    }
  }

  /** Removing the row at position `i`: order, keys, row conditions and
      unique columns are kept, and exactly the rows under other keys remain. */
  lemma RemoveRow<T, U>(rows: seq<T>, key: T -> int, next: int, i: nat, p: T -> bool, field: T -> U)
    requires Ascending(rows, key) && KeysBelow(rows, key, next) && i < |rows|
    ensures Ascending(RemoveAt(rows, i), key) && KeysBelow(RemoveAt(rows, i), key, next)
    ensures All(rows, p) ==> All(RemoveAt(rows, i), p)
    ensures Distinct(rows, field) ==> Distinct(RemoveAt(rows, i), field)
    ensures forall y :: y in RemoveAt(rows, i) <==> y in rows && key(y) != key(rows[i])
  {
    var r := RemoveAt(rows, i);
    forall a, b | 0 <= a < b < |r|
      ensures key(r[a]) < key(r[b])
      ensures Distinct(rows, field) ==> field(r[a]) != field(r[b])
    {
      RemovedPair(rows, i, a, b);
    }
    forall y
      ensures y in r <==> y in rows && key(y) != key(rows[i])
    {
      RemovedMember(rows, key, i, y);
    }
  }

  /** Rows `a < b` of the shortened table are two rows of the original, in the
      same order. */
  lemma RemovedPair<T>(rows: seq<T>, i: nat, a: int, b: int)
    requires i < |rows| && 0 <= a < b < |rows| - 1
    ensures exists a', b' :: 0 <= a' < b' < |rows| && RemoveAt(rows, i)[a] == rows[a'] && RemoveAt(rows, i)[b] == rows[b']
  {
    var a', b' := if a < i then a else a + 1, if b < i then b else b + 1;
    assert RemoveAt(rows, i)[a] == rows[a'] && RemoveAt(rows, i)[b] == rows[b'];
  }

  lemma RemovedMember<T>(rows: seq<T>, key: T -> int, i: nat, y: T)
    requires Ascending(rows, key) && i < |rows|
    ensures y in RemoveAt(rows, i) <==> y in rows && key(y) != key(rows[i])
  {
    var r := RemoveAt(rows, i);
    if y in r {
      var k :| 0 <= k < |r| && r[k] == y;
      var k' := if k < i then k else k + 1;
      assert rows[k'] == y && k' != i;
    }
    if y in rows && key(y) != key(rows[i]) {
      var k :| 0 <= k < |rows| && rows[k] == y;
      assert k != i;
      assert r[if k < i then k else k - 1] == y;
    }
  }

  /** A filtered table keeps its keys within the handed-out range. */
  lemma FilterKeysBelow<T>(rows: seq<T>, key: T -> int, next: int, keep: T -> bool)
    requires KeysBelow(rows, key, next)
    ensures KeysBelow(Filter(rows, keep), key, next)
  {
    var r := Filter(rows, keep);
    forall j | 0 <= j < |r|
      ensures 1 <= key(r[j]) < next
    {
      assert r[j] in rows;
    }
  }
}

=== FILE: text.dfy ===
/** Optional values: a column declared `nullable=True`, a form field that was
    not supplied, or a lookup by id that found nothing. */
module Optional {

  datatype Option<+T> = None | Some(value: T) {

    /** The value, or `default` when there is none. */
    function GetOr(default: T): T {
      match this
      case Some(v) => v
      case None => default
    }
  }
}

/** Strings as the application handles them: ASCII case folding (the model of
    Python's `str.lower` and of the database's case-insensitive comparison),
    substring search, and Python's `str.split` / `str.join` on one separator
    character. */
module Text {

  predicate IsUpper(c: char) {
    'A' <= c <= 'Z'
  }

  /** ASCII lower-casing of one character. */
  function LowerChar(c: char): (r: char)
    ensures !IsUpper(r)
    ensures !IsUpper(c) ==> r == c
  {
    if IsUpper(c) then (c as int + 32) as char else c
  }

  /** `s.lower()`, restricted to ASCII letters. */
  function Lower(s: string): (r: string)
    ensures |r| == |s|
    ensures forall i :: 0 <= i < |s| ==> r[i] == LowerChar(s[i])
  {
    seq(|s|, i requires 0 <= i < |s| => LowerChar(s[i]))
  }

  /** Lower-casing commutes with concatenation, so the lower-cased
      `city + ", " + state` is `lower(city) + ", " + lower(state)`. */
  lemma LowerAppend(a: string, b: string)
    ensures Lower(a + b) == Lower(a) + Lower(b)
  {
  }

  /** `p in t` for Python strings: `p` occurs as a contiguous block of `t`. */
  predicate IsSubstring(p: string, t: string) {
    exists k :: 0 <= k <= |t| && OccursAt(p, t, k)
  }

  /** `p` occurs in `t` starting at position `k`. */
  predicate OccursAt(p: string, t: string, k: int) {
    0 <= k && k + |p| <= |t| && t[k..k + |p|] == p
  }

  /** Number of occurrences of `c` in `s`. */
  function Occurrences(s: string, c: char): nat
  {
    if |s| == 0 then 0
    else (if s[0] == c then 1 else 0) + Occurrences(s[1..], c)
  }

  /** Python's `s.split(sep)` for a one-character separator: the pieces
      between consecutive separators, including empty ones, so that the
      empty string splits into one empty piece. */
  function Split(s: string, sep: char): (r: seq<string>)
    ensures |r| == Occurrences(s, sep) + 1
    ensures forall i :: 0 <= i < |r| ==> sep !in r[i]
  {
    if |s| == 0 then [""]
    else
      var rest := Split(s[1..], sep);
      if s[0] == sep then [""] + rest
      else [[s[0]] + rest[0]] + rest[1..]
  }

  /** Python's `sep.join(parts)`. */
  function Join(parts: seq<string>, sep: char): string
  {
    if |parts| == 0 then ""
    else if |parts| == 1 then parts[0]
    else parts[0] + [sep] + Join(parts[1..], sep)
  }

  /** A separator-free string is a single piece. */
  lemma {:induction false} SplitNoSeparator(s: string, sep: char)
    requires sep !in s
    ensures Split(s, sep) == [s]
    decreases |s|
  {
    if |s| > 0 {
      assert sep !in s[1..];
      SplitNoSeparator(s[1..], sep);
      assert s[0] != sep;
      assert [s[0]] + s[1..] == s;
    }
  }

  /** Splitting at the first separator of `a + [sep] + b`. */
  lemma {:induction false} SplitAtFirst(a: string, sep: char, b: string)
    requires sep !in a
    ensures Split(a + [sep] + b, sep) == [a] + Split(b, sep)
    decreases |a|
  {
    var s := a + [sep] + b;
    if |a| == 0 {
      assert s == [sep] + b;
      assert s[1..] == b;
    } else {
      assert s[1..] == a[1..] + [sep] + b;
      assert sep !in a[1..];
      SplitAtFirst(a[1..], sep, b);
      assert [a[0]] + a[1..] == a;
    }
  }

  /** Splitting undoes joining, for a non-empty list of separator-free
      pieces. */
  lemma {:induction false} SplitJoin(parts: seq<string>, sep: char)
    requires |parts| > 0
    requires forall i :: 0 <= i < |parts| ==> sep !in parts[i]
    ensures Split(Join(parts, sep), sep) == parts
    decreases |parts|
  {
    if |parts| == 1 {
      SplitNoSeparator(parts[0], sep);
    } else {
      SplitAtFirst(parts[0], sep, Join(parts[1..], sep));
      SplitJoin(parts[1..], sep);
      assert [parts[0]] + parts[1..] == parts;
    }
  }

  /** Joining undoes splitting, for every string. */
  lemma {:induction false} JoinSplit(s: string, sep: char)
    ensures Join(Split(s, sep), sep) == s
    decreases |s|
  {
    if |s| > 0 {
      var rest := Split(s[1..], sep);
      JoinSplit(s[1..], sep);
      if s[0] == sep {
        assert Join([""] + rest, sep) == "" + [sep] + Join(rest, sep);
        assert s == [s[0]] + s[1..];
      } else {
        var parts := [[s[0]] + rest[0]] + rest[1..];
        assert parts[1..] == rest[1..];
        if |rest| == 1 {
          assert Join(rest, sep) == rest[0];
        } else {
          assert Join(rest, sep) == rest[0] + [sep] + Join(rest[1..], sep);
        }
        assert s == [s[0]] + s[1..];
      }
    }
  }
}
